=== FILE: README.md ===
# AR loading page: a Dafny model

`assets/script.js` drives the loading screen of a browser AR page. Its parts:

- **`LoadingAnimationManager`** is the overlay. It shows a status line, a detail line, a fill height and a percentage. An interval timer animates the percentage toward its target in 20 ticks. `hasError` is an error latch: once an error is shown, progress updates, animations and hiding do nothing.
- **`DebugLogger`** is an append-only list of `{level, message}` entries.
- **`ErrorHandler`** turns four kinds of failure signal (media error code, camera error name, HTTP status, operation timeout) into an error record. For each record it:
  - writes one error line to the log;
  - renders the error on the overlay, with a retry button when the record is recoverable and a reload button every time;
  - runs the callbacks registered for the record's type, each inside its own `try`/`catch`.
- **`retryOperation`** dispatches the retry button's key.
- **`ARLoadingManager`** sequences the loading. Each milestone sets a progress target:
  - 20% at start;
  - 40% when A-Frame is present, then it requests the camera;
  - 60% when the camera is granted, then it initialises the AR scene;
  - 80% when the scene has loaded, then it sets up the video;
  - 100% on `canplay`, then after a second it hides the overlay.

  A 15-second timeout reports a slow video.
- **The `play-video` component's `playstart`** toggles playback on a tap or a found marker.

## Modules

- `Errors` (errors.dfy) holds the classification as pure functions. It also holds the log line, the rendered content (`ErrorView`: heading, optional paragraph, retry key, reload button) and the retry dispatch. `Decimal` prints the numbers that appear in messages.
- `Logging` (logging.dfy) is the `DebugLogger` class.
- `Overlay` (overlay.dfy) first states the overlay as a value, `OverlayState`, with one function per operation. The class `LoadingAnimationManager` then updates its fields in place, and each method is proved to follow its function. Lemmas about the functions cover:
  - the latch;
  - the frames of the animation;
  - the animation converging on its target.
- `Notifier` (notifier.dfy) holds `ErrorHandler`. The page's callbacks are closures; here they are values of type `Callback`:
  - the two kinds the page registers: warn when the record is not recoverable, and on a `video` timeout rewrite the detail line and warn;
  - a foreign callback that may throw.

  `ExecuteCallbacks` is the `forEach` loop, with its invariants.
- `PageModel` (page_model.dfy) states the whole page as a value, `Session`, with one function per browser event. Timers, promise settlements and DOM events that are still pending are counters and flags in the session. The page's DOM at the moment of an event (`Page`: whether A-Frame is loaded, the scene, the video element) is an argument. Lemmas state:
  - the error latch across any later events;
  - that the timeout fires at most once;
  - scenarios: a successful load, a timeout before `canplay`, a camera stream without video tracks, a missing video element, and two camera grants before the scene loads, which leave two `loaded` listeners and run the video setup twice.
- `Sequencer` (sequencer.dfy) holds the `ARLoadingManager` class. Each method is one step of the source. It is proved to move the manager's `Snapshot()` (overlay, log, callbacks run, own fields) exactly as the `PageModel` function of that step.
- `PlayVideo` (play_video.dfy) holds `playstart` as a function and as a method of the component class, plus lemmas over series of presses.

## Behaviour of the code that the model follows

These points follow the code:

- An HTTP status below 500 other than 404 is **not** recoverable. This includes the 0 reported when `fetch` itself fails. Only 5xx statuses get a retry button.
- A missing video element is reported as a video error with code 0. The classification does not know code 0, so the record has the generic message, no details, and **is** recoverable. Its retry button re-runs the video setup.
- `updateStatus`/`updateDetail` do not check the latch. The status and detail lines can still change after an error, and the timeout callback rewrites the detail line this way.
- The timeout also latches the overlay. A `canplay` that arrives after it does not reach 100%, and the `complete()` it schedules does not hide the overlay. The page stays on the error.
- A `hide()` issued *before* an error still completes: its timer adds the `hidden` class without consulting the latch. The latch lemmas therefore assume that no hide is pending.
- Defect in the camera step, at assets/script.js:460-461. When the granted stream has no video track, the handler calls `handleCameraError(error)`, but no `error` is in scope there. Evaluating the argument throws a `ReferenceError`, and the `.catch` at assets/script.js:467-469 reports that exception instead. The net effect:
  - a generic, recoverable camera error (name `ReferenceError`, details = the engine's message);
  - the logging and 60% progress after the check never run, and the scene is not initialised.

  The model follows this: `AfterCameraAnswer` and `Sequencer.ARLoadingManager.CameraAnswered` for `Granted(0)`, with `PageModel.ZeroTrackStream` stating the outcome. The evident intent was to report a "no video track" camera error. Even then, the handler has no `return` after that report, so with an `error` in scope it would still go on to log, call `updateProgress(60)` and initialise the scene (assets/script.js:463-465). The `updateProgress(60)` call does nothing there, because the error it just reported has latched the overlay (assets/script.js:72).
- `AFRAME.registerComponent` at the top level of the script throws if A-Frame is not loaded. So whenever the page's initialisation runs at all, the first library check finds A-Frame. The polling branch is modelled all the same.

## Model

| member | source | states |
|---|---|---|
| Decimal.NatToDecimal | assets/script.js:288 | a status or a duration prints as digits only, with no leading zero |
| Decimal.DecimalRoundTrip | assets/script.js:315 | reading a printed number back gives the number (so printing is injective) |
| Errors.ClassifyVideo | assets/script.js:204-234 | not recoverable iff the code is 3 or 4; details present iff the code is 1-4; generic message iff no details (null error, code 0, any other code) |
| Errors.VideoMessageIdentifiesCode | assets/script.js:213-233 | equal messages imply the same known code, or both in the generic bucket |
| Errors.ClassifyCamera | assets/script.js:244-272 | not recoverable iff the name is NotAllowedError or NotFoundError; an unknown name keeps the generic message with the raw message as details; known names never get the generic message |
| Errors.CameraMessageIdentifiesName | assets/script.js:253-272 | the message of a known name determines the name |
| Errors.NetworkDetails | assets/script.js:288 | the generic network details start with `URL: <url>, ステータス: ` and the rest is a numeral that reads back as the status |
| Errors.ClassifyNetwork | assets/script.js:282-299 | recoverable iff the status is at least 500; 404 gives the not-found message; any other status below 500 gives the generic message with `URL: <url>, ステータス: <status>` as details |
| Errors.ClassifyTimeout | assets/script.js:309-317 | always recoverable; the message starts with the operation, the details with the seconds |
| Errors.TimeoutTextIdentifiesSignal | assets/script.js:314-315 | message and details determine the operation and the duration |
| Errors.UpperAscii | assets/script.js:329 | upper-casing keeps the length, turns each lower-case ASCII letter into its capital (code point minus 32), leaves every other character as it is, and leaves no lower-case letter |
| Errors.LogLine | assets/script.js:329 | the log line ends with ` - ` followed by the details, with nothing after the dash when the details are null |
| Errors.LogLineNamesKind | assets/script.js:327-331 | the log line starts with the upper-cased type and `: `, from which the type reads back, and the message follows |
| Errors.Render | assets/script.js:334-366 | heading is the message; paragraph iff details non-empty; retry button keyed by the type iff recoverable; reload button always |
| Errors.RetryDispatch | assets/script.js:607-620 | nothing without a manager; `video` re-runs the video setup and `camera` the camera request (both iff); anything else reloads |
| Errors.RetryButtonAction | assets/script.js:346-353 | a recoverable record's retry button re-runs the video or camera step, and reloads for network and timeout records |
| Logging.DebugLogger.constructor | assets/script.js:154-156 | starts empty |
| Logging.DebugLogger.Log | assets/script.js:159-167 | appends exactly one entry and keeps the earlier ones |
| Logging.DebugLogger.Error | assets/script.js:170-172 | appends one error-level entry |
| Logging.DebugLogger.Warn | assets/script.js:175-177 | appends one warn-level entry |
| Logging.DebugLogger.Info | assets/script.js:180-182 | appends one info-level entry |
| Overlay.Round | assets/script.js:106 | `Math.round`: the nearest integer, halves up |
| Overlay.Mounted | assets/script.js:13-54 | creation shows the initial texts and 0%, unlatched, keeping the invariant |
| Overlay.WithStatus | assets/script.js:57-61 | overwrites the status line once created, even when latched; nothing else changes |
| Overlay.WithDetail | assets/script.js:64-68 | overwrites the detail line once created, even when latched; nothing else changes |
| Overlay.AfterAnimate | assets/script.js:81-95 | no-op when latched; otherwise replaces any running animation by one from the displayed value to the target |
| Overlay.AfterProgress | assets/script.js:71-78 | no-op when latched; otherwise sets the fill and starts the animation to the same target |
| Overlay.AfterTick | assets/script.js:96-107 | no-op without a running animation; keeps the invariant |
| Overlay.AfterHide | assets/script.js:111-125 | no-op when latched or when the overlay was never created; otherwise fades and schedules one hide; nothing but the fade and the pending hides changes |
| Overlay.AfterHideTimer | assets/script.js:118-123 | a pending hide adds the hidden class and clears a running animation, leaving its handle in place, latch or not; nothing but the hidden class, the pending hides and the timer changes |
| Overlay.AfterShowError | assets/script.js:128-147 | once created: latched, no timer, the content shown, nothing else changed |
| Overlay.StepPreservesInv | assets/script.js:4-148 | every operation keeps the invariant (a running timer only while unlatched; latched implies created with ERROR letters and content, and a null `animationTimer`) |
| Overlay.LatchIsPermanent | assets/script.js:71-114 | after an error, no call sequence changes percentage, fill, fade or hidden, leaves `animationTimer` non-null or clears the latch |
| Overlay.LatchedTimerStaysNull | assets/script.js:71-147 | after an error, even with an earlier hide() pending, `animationTimer` stays null and the latch stays set under any call sequence |
| Overlay.TicksFollowFrames | assets/script.js:96-107 | before the last tick, n ticks show the rounded interpolated frame |
| Overlay.TicksReachTarget | assets/script.js:100-104 | the last tick lands exactly on the target and drops the timer |
| Overlay.IdleTicks | assets/script.js:96-107 | ticks without a running animation change nothing |
| Overlay.AnimationFrames | assets/script.js:84-107 | tick k < 20 of a new animation shows round(start + k·(target−start)/20) |
| Overlay.ProgressConverges | assets/script.js:71-107 | 20 or more ticks after an unlatched update, percentage and fill equal the target and no timer remains |
| Overlay.FrameBetween | assets/script.js:88-106 | every frame lies between start and target |
| Overlay.LoadingAnimationManager.constructor | assets/script.js:5-10 | starts uncreated and unlatched |
| Overlay.LoadingAnimationManager.Create | assets/script.js:13-54 | state becomes `Mounted` of the old state |
| Overlay.LoadingAnimationManager.UpdateStatus | assets/script.js:57-61 | state follows `WithStatus` |
| Overlay.LoadingAnimationManager.UpdateDetail | assets/script.js:64-68 | state follows `WithDetail` |
| Overlay.LoadingAnimationManager.UpdateProgress | assets/script.js:71-78 | state follows `AfterProgress`; unchanged when latched |
| Overlay.LoadingAnimationManager.AnimatePercentage | assets/script.js:81-108 | state follows `AfterAnimate`; unchanged when latched |
| Overlay.LoadingAnimationManager.Tick | assets/script.js:96-107 | state follows `AfterTick` |
| Overlay.LoadingAnimationManager.Hide | assets/script.js:111-125 | state follows `AfterHide`; unchanged when latched |
| Overlay.LoadingAnimationManager.HideTimerFires | assets/script.js:118-123 | state follows `AfterHideTimer` |
| Overlay.LoadingAnimationManager.ShowErrorMessage | assets/script.js:128-147 | state follows `AfterShowError`; latched whenever created |
| Notifier.InvocationsInOrder | assets/script.js:369-379 | every registered callback runs exactly once, in registration order, whether or not an earlier one threw |
| Notifier.CallbacksOnlyWarn | assets/script.js:412-432 | the page's callbacks add only warn-level entries |
| Notifier.CallbacksOnlyTouchDetail | assets/script.js:428-432 | the page's callbacks change nothing on the overlay but the detail line |
| Notifier.HandlerLogsOneError | assets/script.js:327-331 | a handler call adds exactly one error-level entry, its log line, ahead of the callbacks' warnings |
| Notifier.CallbacksKeepInv | assets/script.js:428-432 | the callbacks keep the overlay's invariant |
| Notifier.NotifyLatches | assets/script.js:334-366 | a handler call keeps the overlay's invariant, and latches a created overlay on the rendered record, keeping percentage, fill and visibility |
| Notifier.ErrorHandler.constructor | assets/script.js:189-193 | holds the given overlay and logger, no callbacks |
| Notifier.ErrorHandler.On | assets/script.js:196-201 | appends the callback to its type's list, creating it; other types unchanged |
| Notifier.ErrorHandler.HandleVideoError | assets/script.js:204-241 | returns `ClassifyVideo` of the error; log, overlay and callbacks run as one handler call |
| Notifier.ErrorHandler.HandleCameraError | assets/script.js:244-279 | returns `ClassifyCamera` of the error; log, overlay and callbacks run as one handler call |
| Notifier.ErrorHandler.HandleNetworkError | assets/script.js:282-306 | returns `ClassifyNetwork` of url and status; log, overlay and callbacks run as one handler call |
| Notifier.ErrorHandler.HandleTimeout | assets/script.js:309-324 | returns `ClassifyTimeout`; log, overlay and callbacks run as one handler call |
| Notifier.ErrorHandler.LogError | assets/script.js:327-331 | with a logger, appends exactly the record's error line |
| Notifier.ErrorHandler.DisplayError | assets/script.js:334-366 | with an overlay, shows `Render` of the record |
| Notifier.ErrorHandler.ExecuteCallbacks | assets/script.js:369-379 | the loop leaves the log, overlay and callbacks run as the in-order fold over the type's callbacks |
| Notifier.ErrorHandler.RunCallback | assets/script.js:372-376 | one callback's effect, and whether it threw |
| PageModel.Notified | assets/script.js:236-240 | one handler call with the page's callbacks: only log, overlay and callbacks run change; the overlay keeps its invariant and, once created, is latched on the record with percentage, fill and visibility kept |
| PageModel.AfterInit | assets/script.js:404-409 | after init the overlay exists with no error, the timeout is set and armed, the init line is the first new log entry, and the fill is at 40% with one camera request when A-Frame is there, otherwise at 20% with a library poll pending |
| PageModel.Started | assets/script.js:436-451 | leaves the timeout alone, keeps the overlay's invariant, keeps a latched overlay, logs the library-check line first, sets the fill to 40% with one camera request when A-Frame is there, and to 20% with a poll pending otherwise |
| PageModel.LibraryChecked | assets/script.js:440-450 | leaves the timeout alone; keeps the overlay's invariant; a latched overlay stays as it was; the log only grows |
| PageModel.CameraRequested | assets/script.js:454-457 | leaves the timeout alone and keeps the overlay's invariant |
| PageModel.CameraGranted | assets/script.js:463-465 | leaves the timeout alone; keeps the overlay's invariant; a latched overlay stays as it was; on an unlatched page whose scene is still loading, the fill is at 60% with one more `loaded` listener |
| PageModel.ARInitialized | assets/script.js:473-496 | leaves the timeout alone; keeps the overlay's invariant; a latched overlay stays as it was |
| PageModel.VideoSetUp | assets/script.js:499-516 | leaves the timeout alone; keeps the overlay's invariant; a latched overlay stays as it was |
| PageModel.AfterLibraryPoll | assets/script.js:447 | keeps the overlay's invariant, respects the latch and a disarmed timeout |
| PageModel.AfterCameraAnswer | assets/script.js:458-470 | keeps the overlay's invariant, respects the latch and a disarmed timeout |
| PageModel.AfterSceneRetry | assets/script.js:494 | keeps the overlay's invariant, respects the latch and a disarmed timeout |
| PageModel.AfterSceneLoaded | assets/script.js:481-485 | keeps the overlay's invariant, respects the latch and a disarmed timeout |
| PageModel.ListenerPerInitialization | assets/script.js:481-485 | every initializeAR on a scene that has not loaded adds one `loaded` listener and probes nothing yet |
| PageModel.ListenerSetsUpVideo | assets/script.js:481-485 | each listener the `loaded` event reaches runs setupVideo: one more HEAD probe of the video's source |
| PageModel.TwoGrantsTwoSetups | assets/script.js:458-485 | two camera grants before the scene loads leave two listeners, and the `loaded` event then probes the file twice |
| PageModel.AfterProbe | assets/script.js:519-535 | keeps the overlay's invariant, respects the latch and a disarmed timeout |
| PageModel.ProbeFailed | assets/script.js:528-534 | keeps the overlay's invariant, respects the latch and a disarmed timeout |
| PageModel.ProbeOk | assets/script.js:524-527 | a successful probe changes only the log |
| PageModel.AfterLoadStart | assets/script.js:541-544 | keeps the overlay's invariant, respects the latch and a disarmed timeout |
| PageModel.AfterMetadata | assets/script.js:546-549 | keeps the overlay's invariant, respects the latch and a disarmed timeout |
| PageModel.AfterCanPlay | assets/script.js:551-557 | keeps the overlay's invariant, respects the latch and a disarmed timeout; the timeout handle is gone and one more settle timer is pending; on an unlatched page the fill is at 100%, the status reads ready and the percentage animates from its displayed value to 100 |
| PageModel.AfterVideoError | assets/script.js:559-561 | keeps the overlay's invariant, respects the latch and a disarmed timeout |
| PageModel.AfterVideoTimeout | assets/script.js:573-576 | keeps the overlay's invariant, respects the latch and a disarmed timeout |
| PageModel.AfterSettle | assets/script.js:594-598 | keeps the overlay's invariant, respects the latch and a disarmed timeout |
| PageModel.Completed | assets/script.js:594-598 | keeps the overlay's invariant, respects the latch and a disarmed timeout; the overlay is exactly hide()'s result and nothing but the log, the timeout fields and the overlay changes; logs exactly the completion line; drops the timeout handle and disarms a timeout that still had one; a latched overlay is left as it is, otherwise it fades and one more hide is pending |
| PageModel.TimeoutsSet | assets/script.js:573-577 | the timeout is armed and its handle kept, nothing else changes |
| PageModel.TimeoutsCleared | assets/script.js:580-585 | the handle is gone; the timeout stays armed only when there was no handle to cancel; nothing else changes |
| PageModel.AfterRetry | assets/script.js:607-620 | keeps the overlay's invariant, respects the latch and a disarmed timeout |
| PageModel.AfterAnimationTick | assets/script.js:96-107 | keeps the overlay's invariant, respects the latch and a disarmed timeout |
| PageModel.AfterHideDelay | assets/script.js:118-123 | keeps the overlay's invariant, respects the latch and a disarmed timeout |
| PageModel.Apply | assets/script.js:385-598 | every page event keeps the overlay's invariant and respects the latch and a disarmed timeout |
| PageModel.RunKeepsInv | assets/script.js:385-598 | every run of page events keeps the overlay's invariant |
| PageModel.ReachableInv | assets/script.js:404-598 | every session reached from init() by page events satisfies the overlay's invariant, the premise of the latch lemmas |
| PageModel.ErrorLatchHolds | assets/script.js:551-598 | once an error is shown, no later sequence of page events changes percentage, fill or visibility, so a late `canplay` and `complete()` never reach 100% or hide the overlay |
| PageModel.TimeoutFiresAtMostOnce | assets/script.js:573-585 | once the timeout has fired or been cleared, no event re-arms it |
| PageModel.CameraOnlyAfterLibrary | assets/script.js:440-450 | without A-Frame no camera request and a poll pending; with it exactly one request, with the fill at 40% |
| PageModel.SuccessfulLoad | assets/script.js:404-409 | fill at 40% and one camera request after init; fill at 80% with probe and listeners after a granted stream; fill at 100%, timeout cleared and settle timer after `canplay`; faded and hidden with no error after completion |
| PageModel.TimeoutThenLateCanPlay | assets/script.js:573-576 | on a page without an error, the timeout shows a recoverable timeout error whose retry reloads, logs the error line and the slow-video warning, and rewrites the detail; a later `canplay` and completion keep the percentage and fill the timeout found, unfaded and not hidden |
| PageModel.TickRun | assets/script.js:96-107 | a run of animation timer events is exactly that many overlay ticks, and changes nothing else |
| PageModel.TimeoutBeforeCanPlay | assets/script.js:551-576 | after a granted stream and the 20 animation ticks, the page shows 80% with the fill at 80%; when the timeout fires before `canplay`, 80% stays on display and the fill at 80% through the late `canplay` and completion, which do not hide the overlay |
| PageModel.ZeroTrackStream | assets/script.js:460-469 | a stream without video tracks gives a generic recoverable camera error carrying the ReferenceError's message, retried by re-requesting the camera, with no progress and no AR step |
| PageModel.MissingVideoElement | assets/script.js:503-507 | a missing video element gives a generic recoverable video error without details, retried by re-running the video setup |
| Sequencer.ARLoadingManager.constructor | assets/script.js:386-401 | the session is `Constructed` and the handler holds the page's three callbacks |
| Sequencer.ARLoadingManager.Init | assets/script.js:404-409 | snapshot follows `AfterInit` |
| Sequencer.ARLoadingManager.StartLoadingSequence | assets/script.js:436-451 | snapshot follows `Started` |
| Sequencer.ARLoadingManager.CheckLibraries | assets/script.js:440-449 | snapshot follows `LibraryChecked` |
| Sequencer.ARLoadingManager.LibraryPollFires | assets/script.js:447 | snapshot follows `AfterLibraryPoll` |
| Sequencer.ARLoadingManager.RequestCameraAccess | assets/script.js:454-457 | snapshot follows `CameraRequested` |
| Sequencer.ARLoadingManager.CameraAnswered | assets/script.js:458-470 | snapshot follows `AfterCameraAnswer` |
| Sequencer.ARLoadingManager.CatchCameraError | assets/script.js:467-469 | snapshot follows one camera handler call |
| Sequencer.ARLoadingManager.ContinueWithStream | assets/script.js:463-465 | snapshot follows `CameraGranted` |
| Sequencer.ARLoadingManager.InitializeAR | assets/script.js:473-496 | snapshot follows `ARInitialized` |
| Sequencer.ARLoadingManager.SceneRetryFires | assets/script.js:494 | snapshot follows `AfterSceneRetry` |
| Sequencer.ARLoadingManager.SceneLoaded | assets/script.js:481-485 | snapshot follows `AfterSceneLoaded`: one of the pending `loaded` listeners runs |
| Sequencer.ARLoadingManager.SetupVideo | assets/script.js:499-516 | snapshot follows `VideoSetUp` |
| Sequencer.ARLoadingManager.CheckVideoFile | assets/script.js:519-522 | logs the probe and records it as pending; the other own fields unchanged |
| Sequencer.ARLoadingManager.ProbeAnswered | assets/script.js:522-534 | snapshot follows `AfterProbe` |
| Sequencer.ARLoadingManager.ProbeSucceeded | assets/script.js:524-527 | snapshot follows `ProbeOk`: only the three log lines are added |
| Sequencer.ARLoadingManager.ProbeRejected | assets/script.js:528-534 | snapshot follows `ProbeFailed`: one network error handler call for the file |
| Sequencer.ARLoadingManager.SetupVideoEvents | assets/script.js:538-570 | the media listeners are attached; the other own fields unchanged |
| Sequencer.ARLoadingManager.OnLoadStart | assets/script.js:541-544 | snapshot follows `AfterLoadStart` |
| Sequencer.ARLoadingManager.OnLoadedMetadata | assets/script.js:546-549 | snapshot follows `AfterMetadata` |
| Sequencer.ARLoadingManager.OnCanPlay | assets/script.js:551-557 | snapshot follows `AfterCanPlay` |
| Sequencer.ARLoadingManager.OnVideoError | assets/script.js:559-561 | snapshot follows `AfterVideoError` |
| Sequencer.ARLoadingManager.SetupTimeouts | assets/script.js:573-577 | the timeout is set and armed; the other own fields unchanged |
| Sequencer.ARLoadingManager.ClearTimeouts | assets/script.js:580-585 | no handle remains; an armed timeout with a handle is disarmed; the other own fields unchanged |
| Sequencer.ARLoadingManager.VideoTimeoutFires | assets/script.js:574-576 | snapshot follows `AfterVideoTimeout` |
| Sequencer.ARLoadingManager.SettleTimerFires | assets/script.js:556 | snapshot follows `AfterSettle` |
| Sequencer.ARLoadingManager.Complete | assets/script.js:594-598 | snapshot follows `Completed` |
| Sequencer.ARLoadingManager.AnimationTimerFires | assets/script.js:96-107 | snapshot follows `AfterAnimationTick` |
| Sequencer.ARLoadingManager.HideDelayElapses | assets/script.js:118-123 | snapshot follows `AfterHideDelay` |
| Sequencer.ARLoadingManager.RetryOperation | assets/script.js:607-620 | returns the dispatch of the key; snapshot follows `AfterRetry` |
| PlayVideo.Press | assets/script.js:664-683 | no source: nothing changes; stopped: plays iff readyState ≥ 2; playing: pauses and stops iff canstop |
| PlayVideo.PlayingIsSticky | assets/script.js:679-682 | without canstop, once playing always playing |
| PlayVideo.PlayThenPause | assets/script.js:670-682 | with canstop, two presses on a ready video play and then pause |
| PlayVideo.PlayingNeedsReadyPress | assets/script.js:665-675 | from stopped, playing implies a source and some press with readyState ≥ 2 |
| PlayVideo.PlayVideoComponent.constructor | assets/script.js:655 | starts not playing |
| PlayVideo.PlayVideoComponent.Playstart | assets/script.js:664-683 | the new `playing` and the command follow `Press` |

## Left out

- DOM construction, markup and CSS: the overlay's elements, the ERROR span swap and the buttons' styling. The rendered content is the abstract `ErrorView`, and the letters are `Indicator`.
- Real timers. `setTimeout`/`setInterval` become explicit events (ticks, the hide delay, the library poll, the scene retry, the 15-second timeout, the one-second settle timer). Their ordering is whatever sequence of events is applied.
- Foreign APIs become inputs:
  - `fetch` becomes `ProbeOutcome`;
  - `getUserMedia` becomes `CameraOutcome`;
  - the presence of A-Frame, the scene and the video element become `Page`;
  - media events become events;
  - `video.load()`, `play()` and `pause()` become `PlayVideo.Command`.

  `console.*` is not modelled. `window.location.reload` is the `ReloadPage` action; what follows a reload is a new page.
- The `progress` listener (assets/script.js:563-569): floating-point buffered fraction and `toFixed`.
- The exact double rounding of the animation: frames are computed in `real`. The first value is read back from the percentage text; that the text is always an integer percentage is taken as given.
- The metadata line's width, height and duration are one string input (`summary`), as the browser prints them.
- The `play-video` component's material and listener wiring (assets/script.js:630-662). `play()` rejections are only logged by the source and are not modelled; `playing` is set regardless.
- Sequencer.ARLoadingManager.SetupVideo: a retry re-attaches the media listeners and re-registers nothing else. Duplicate listeners after a retry, each of which would run its handler again, are modelled as one set of listeners.
- The page's callbacks close over the manager's logger and overlay. The model runs them against the handler's own logger and overlay; the manager's invariant `Valid()` states that these are the same objects.
- The `ReferenceError` message is V8's wording (`error is not defined`); other engines word it differently.
- `Session` counts pending camera requests, scene retries, scene `loaded` listeners and settle timers; which of several identical pending callbacks fires first is not distinguished.

=== FILE: decimal.dfy ===
/**
 * Decimal rendering of non-negative integers, as a JavaScript template literal
 * prints an HTTP status code or a duration in seconds, and its inverse.
 */
module Decimal {

  predicate IsDigit(c: char) {
    '0' <= c <= '9'
  }

  predicate AllDigits(s: string) {
    forall i | 0 <= i < |s| :: IsDigit(s[i])
  }

  function DigitChar(d: nat): (c: char)
    requires d < 10
    ensures IsDigit(c) && c as int - '0' as int == d
  {
    ('0' as int + d) as char
  }

  /** The shortest decimal numeral of `n`: digits only, and no leading zero. */
  function NatToDecimal(n: nat): (s: string)
    ensures |s| >= 1 && AllDigits(s)
    ensures s[0] == '0' ==> n == 0 && s == "0"
    decreases n
  {
    if n < 10 then [DigitChar(n)] else NatToDecimal(n / 10) + [DigitChar(n % 10)]
  }

  /** The value of a numeral, read most significant digit first. */
  function DecimalValue(s: string): nat
    requires AllDigits(s)
  {
    if s == [] then 0
    else 10 * DecimalValue(s[..|s| - 1]) + (s[|s| - 1] as int - '0' as int)
  }

  /** Reading a printed number back gives the number. */
  lemma {:induction false} DecimalRoundTrip(n: nat)
    ensures DecimalValue(NatToDecimal(n)) == n
  {
    var s := NatToDecimal(n);
    if n >= 10 {
      var p := NatToDecimal(n / 10);
      assert s[..|s| - 1] == p;
      DecimalRoundTrip(n / 10);
    }
  }

  /** Two different numbers never print the same. */
  lemma NatToDecimalInjective(m: nat, n: nat)
    requires NatToDecimal(m) == NatToDecimal(n)
    ensures m == n
  {
    DecimalRoundTrip(m);
    DecimalRoundTrip(n);
  }
}

=== FILE: errors.dfy ===
/**
 * The error classification of the page's ErrorHandler: each handler turns a
 * raw failure signal (a media error code, a DOM error name, an HTTP status, an
 * operation that ran out of time) into one error record. Also here: the line
 * the handler writes to the debug log, the error content it renders, and the
 * dispatch of the retry action that content offers.
 */
module Errors {
  import opened Options
  import opened Decimal

  /** The four categories of the `type` field of an error record. */
  datatype ErrorType = Video | Camera | Network | Timeout

  /** The `type` string of a record, also the key the retry action passes back. */
  function TypeName(t: ErrorType): string {
    match t
    case Video => "video"
    case Camera => "camera"
    case Network => "network"
    case Timeout => "timeout"
  }

  /** The raw signal a record was built from (its `code`, `name`, `statusCode`/`url`
      or `operation`/`duration` field). */
  datatype Signal =
    | MediaCode(code: Option<int>)
    | ErrorName(name: string)
    | HttpStatus(url: string, status: nat)
    | Elapsed(operation: string, duration: nat)

  /** An error record: `details == None` stands for `null`. */
  datatype ErrorInfo = ErrorInfo(
    kind: ErrorType,
    signal: Signal,
    message: string,
    details: Option<string>,
    recoverable: bool)

  /** What a media element's `error` holds (or the literal built for a missing element). */
  datatype MediaError = MediaError(code: int)

  /** A rejected promise's error object: its `name` and `message`. */
  datatype RawError = RawError(name: string, message: string)

  // Media error codes of the HTML media element
  const MediaErrAborted := 1
  const MediaErrNetwork := 2
  const MediaErrDecode := 3
  const MediaErrSrcNotSupported := 4

  const VideoGenericMessage := "動画の読み込みでエラーが発生しました。"
  const VideoAbortedMessage := "動画の読み込みが中断されました。"
  const VideoAbortedDetails := "ユーザーによって中断された可能性があります。"
  const VideoNetworkMessage := "ネットワークエラーで動画を読み込めませんでした。"
  const VideoNetworkDetails := "インターネット接続を確認してください。"
  const VideoDecodeMessage := "動画ファイルが破損している可能性があります。"
  const VideoDecodeDetails := "ファイルの再アップロードが必要かもしれません。"
  const VideoFormatMessage := "動画形式がサポートされていません。"
  const VideoFormatDetails := "MP4形式を使用してください。"

  const CameraGenericMessage := "カメラアクセスエラー"
  const CameraDeniedMessage := "カメラアクセスが拒否されました。"
  const CameraDeniedDetails := "ブラウザの設定でカメラへのアクセスを許可してください。"
  const CameraMissingMessage := "カメラが見つかりません。"
  const CameraMissingDetails := "デバイスにカメラが接続されているか確認してください。"
  const CameraBusyMessage := "カメラが使用中です。"
  const CameraBusyDetails := "他のアプリケーションがカメラを使用している可能性があります。"
  const CameraConstraintMessage := "カメラの設定に問題があります。"
  const CameraConstraintDetails := "要求された設定がデバイスでサポートされていません。"

  const NetworkGenericMessage := "ファイルの読み込みに失敗しました。"
  const NetworkNotFoundMessage := "ファイルが見つかりません。"
  const NetworkNotFoundDetails := "ファイルのパスを確認してください。"
  const NetworkServerMessage := "サーバーエラーが発生しました。"
  const NetworkServerDetails := "しばらく待ってから再試行してください。"

  const TimeoutMessageSuffix := "がタイムアウトしました。"
  const TimeoutDetailsSuffix := "秒経過しても完了しませんでした。"

  /** The DOM error names handleCameraError recognises. */
  const KnownCameraNames: set<string> :=
    {"NotAllowedError", "NotFoundError", "NotReadableError", "OverconstrainedError"}

  /** The detail line of the generic network record: the URL, then the status as a
      numeral that reads back as the status. */
  function NetworkDetails(url: string, status: nat): (r: string)
    ensures var head := "URL: " + url + ", ステータス: ";
            && |head| < |r| && r[..|head|] == head
            && AllDigits(r[|head|..]) && DecimalValue(r[|head|..]) == status
  {
    var head := "URL: " + url + ", ステータス: ";
    var r := head + NatToDecimal(status);
    assert r[|head|..] == NatToDecimal(status);
    DecimalRoundTrip(status);
    r
  }

  /** handleVideoError: `None` is a `null` error. */
  function ClassifyVideo(error: Option<MediaError>): (e: ErrorInfo)
    ensures e.kind == Video
    ensures e.signal == MediaCode(if error.Some? then Some(error.value.code) else None)
    ensures e.recoverable <==> !(error.Some? && error.value.code in {MediaErrDecode, MediaErrSrcNotSupported})
    ensures e.details.Some? <==> error.Some? && MediaErrAborted <= error.value.code <= MediaErrSrcNotSupported
    ensures e.message == VideoGenericMessage <==> e.details.None?
  {
    var generic := ErrorInfo(Video, MediaCode(if error.Some? then Some(error.value.code) else None),
                             VideoGenericMessage, None, true);
    if error.None? then generic
    else if error.value.code == MediaErrAborted then
      generic.(message := VideoAbortedMessage, details := Some(VideoAbortedDetails))
    else if error.value.code == MediaErrNetwork then
      generic.(message := VideoNetworkMessage, details := Some(VideoNetworkDetails))
    else if error.value.code == MediaErrDecode then
      generic.(message := VideoDecodeMessage, details := Some(VideoDecodeDetails), recoverable := false)
    else if error.value.code == MediaErrSrcNotSupported then
      generic.(message := VideoFormatMessage, details := Some(VideoFormatDetails), recoverable := false)
    else generic
  }

  /** handleCameraError. */
  function ClassifyCamera(error: RawError): (e: ErrorInfo)
    ensures e.kind == Camera && e.signal == ErrorName(error.name)
    ensures e.recoverable <==> error.name !in {"NotAllowedError", "NotFoundError"}
    ensures e.details.Some?
    ensures error.name !in KnownCameraNames ==>
              e.message == CameraGenericMessage && e.details == Some(error.message)
    ensures error.name in KnownCameraNames ==> e.message != CameraGenericMessage
  {
    var generic := ErrorInfo(Camera, ErrorName(error.name), CameraGenericMessage, Some(error.message), true);
    match error.name
    case "NotAllowedError" =>
      generic.(message := CameraDeniedMessage, details := Some(CameraDeniedDetails), recoverable := false)
    case "NotFoundError" =>
      generic.(message := CameraMissingMessage, details := Some(CameraMissingDetails), recoverable := false)
    case "NotReadableError" =>
      generic.(message := CameraBusyMessage, details := Some(CameraBusyDetails))
    case "OverconstrainedError" =>
      generic.(message := CameraConstraintMessage, details := Some(CameraConstraintDetails))
    case _ => generic
  }

  /** handleNetworkError: only a server error (5xx) is worth retrying. */
  function ClassifyNetwork(url: string, status: nat): (e: ErrorInfo)
    ensures e.kind == Network && e.signal == HttpStatus(url, status)
    ensures e.recoverable <==> status >= 500
    ensures status == 404 ==> e.message == NetworkNotFoundMessage
    ensures status >= 500 ==> e.message == NetworkServerMessage
    ensures status != 404 && status < 500 ==>
              e.message == NetworkGenericMessage && e.details == Some(NetworkDetails(url, status))
  {
    var e := ErrorInfo(Network, HttpStatus(url, status), NetworkGenericMessage,
                       Some(NetworkDetails(url, status)), status >= 500);
    if status == 404 then
      e.(message := NetworkNotFoundMessage, details := Some(NetworkNotFoundDetails), recoverable := false)
    else if status >= 500 then
      e.(message := NetworkServerMessage, details := Some(NetworkServerDetails))
    else e
  }

  /** handleTimeout: always recoverable, named after the operation and the seconds waited. */
  function ClassifyTimeout(operation: string, duration: nat): (e: ErrorInfo)
    ensures e.kind == Timeout && e.signal == Elapsed(operation, duration) && e.recoverable
    ensures IsPrefix(operation, e.message)
    ensures e.details.Some? && IsPrefix(NatToDecimal(duration), e.details.value)
  {
    ErrorInfo(Timeout, Elapsed(operation, duration), operation + TimeoutMessageSuffix,
              Some(NatToDecimal(duration) + TimeoutDetailsSuffix), true)
  }

  /** The media codes handleVideoError tells apart; every other code is one generic bucket. */
  function VideoBucket(error: Option<MediaError>): int {
    if error.Some? && MediaErrAborted <= error.value.code <= MediaErrSrcNotSupported then error.value.code else 0
  }

  /** Each known media code gets a message of its own. */
  lemma VideoMessageIdentifiesCode(a: Option<MediaError>, b: Option<MediaError>)
    requires ClassifyVideo(a).message == ClassifyVideo(b).message
    ensures VideoBucket(a) == VideoBucket(b)
  {
  }

  /** Each known camera error name gets a message of its own. */
  lemma CameraMessageIdentifiesName(a: RawError, b: RawError)
    requires a.name in KnownCameraNames
    requires ClassifyCamera(a).message == ClassifyCamera(b).message
    ensures a.name == b.name
  {
  }

  /** A timeout record's message names the operation and its details the seconds waited:
      two records that read the same come from the same operation and duration. */
  lemma TimeoutTextIdentifiesSignal(op1: string, d1: nat, op2: string, d2: nat)
    requires ClassifyTimeout(op1, d1).message == ClassifyTimeout(op2, d2).message
    requires ClassifyTimeout(op1, d1).details == ClassifyTimeout(op2, d2).details
    ensures op1 == op2 && d1 == d2
  {
    var m1, m2 := ClassifyTimeout(op1, d1).message, ClassifyTimeout(op2, d2).message;
    assert |op1| == |op2|;
    assert op1 == m1[..|op1|] == m2[..|op2|] == op2;
    var s1, s2 := NatToDecimal(d1), NatToDecimal(d2);
    var t1, t2 := ClassifyTimeout(op1, d1).details.value, ClassifyTimeout(op2, d2).details.value;
    assert |s1| == |s2|;
    assert s1 == t1[..|s1|] == t2[..|s2|] == s2;
    NatToDecimalInjective(d1, d2);
  }

  // ---------------------------------------------------------------------------
  // The log line of logError

  function UpperChar(c: char): char {
    if 'a' <= c <= 'z' then (c as int - 32) as char else c
  }

  /** `toUpperCase` on the ASCII letters a record's type consists of: every lower-case
      letter becomes its capital, and every other character stays. */
  function UpperAscii(s: string): (r: string)
    ensures |r| == |s|
    ensures forall i | 0 <= i < |s| :: !('a' <= r[i] <= 'z')
    ensures forall i | 0 <= i < |s| :: 'a' <= s[i] <= 'z' ==> r[i] as int == s[i] as int - 32
    ensures forall i | 0 <= i < |s| :: !('a' <= s[i] <= 'z') ==> r[i] == s[i]
  {
    seq(|s|, i requires 0 <= i < |s| => UpperChar(s[i]))
  }

  /** `details || ''`: a null detail prints as the empty string. */
  function DetailsText(details: Option<string>): string {
    if details.Some? then details.value else ""
  }

  /** The message logError hands to the logger: `TYPE: message - details`. The line
      ends with ` - ` and the details, nothing after the dash when they are null. */
  function LogLine(e: ErrorInfo): (r: string)
    ensures var d := DetailsText(e.details);
            && |r| >= |d| + 3
            && r[|r| - |d| - 3..|r| - |d|] == " - " && r[|r| - |d|..] == d
    ensures e.details.None? ==> r[|r| - 3..] == " - "
  {
    UpperAscii(TypeName(e.kind)) + ": " + e.message + " - " + DetailsText(e.details)
  }

  predicate IsPrefix(p: string, s: string) {
    |p| <= |s| && s[..|p|] == p
  }

  /** Reads the category back from the head of a log line. */
  function KindOfLine(line: string): Option<ErrorType> {
    if IsPrefix("VIDEO: ", line) then Some(Video)
    else if IsPrefix("CAMERA: ", line) then Some(Camera)
    else if IsPrefix("NETWORK: ", line) then Some(Network)
    else if IsPrefix("TIMEOUT: ", line) then Some(Timeout)
    else None
  }

  /** The log line of a record starts with its category, upper-cased, and the message follows. */
  lemma LogLineNamesKind(e: ErrorInfo)
    ensures KindOfLine(LogLine(e)) == Some(e.kind)
    ensures var head := UpperAscii(TypeName(e.kind)) + ": ";
            LogLine(e)[|head|..|head| + |e.message|] == e.message
  {
    var tag := UpperAscii(TypeName(e.kind));
    var line := LogLine(e);
    var headed := tag + ": " + e.message;
    assert line[..|headed|] == headed;
    assert headed[|tag| + 2..] == e.message;
    assert line[|tag| + 2..|headed|] == headed[|tag| + 2..];
    assert line[..|tag| + 2] == tag + ": ";
    match e.kind
    case Video => assert tag == "VIDEO";
    case Camera => assert tag == "CAMERA" && line[0] == 'C';
    case Network => assert tag == "NETWORK" && line[0] == 'N';
    case Timeout => assert tag == "TIMEOUT" && line[0] == 'T';
  }

  // ---------------------------------------------------------------------------
  // The content displayError renders, and retryOperation

  /** The rendered error content: heading, optional paragraph, the key of the retry
      button when there is one, and whether the reload button is there. */
  datatype ErrorView = ErrorView(heading: string, paragraph: Option<string>, retryKey: Option<string>, reload: bool)

  /** displayError's content for a record. */
  function Render(e: ErrorInfo): (v: ErrorView)
    ensures v.heading == e.message
    ensures v.paragraph.Some? <==> e.details.Some? && e.details.value != ""
    ensures v.paragraph.Some? ==> v.paragraph == e.details
    ensures v.retryKey.Some? <==> e.recoverable
    ensures v.retryKey.Some? ==> v.retryKey.value == TypeName(e.kind)
    ensures v.reload
  {
    ErrorView(e.message,
              if e.details.Some? && e.details.value != "" then e.details else None,
              if e.recoverable then Some(TypeName(e.kind)) else None,
              true)
  }

  /** What retryOperation does with a key. */
  datatype RetryAction = Ignored | RerunVideoSetup | RerunCameraRequest | ReloadPage

  /** retryOperation: `managerExists` is whether the page-level manager was created. */
  function RetryDispatch(key: string, managerExists: bool): (a: RetryAction)
    ensures a == Ignored <==> !managerExists
    ensures a == RerunVideoSetup <==> managerExists && key == "video"
    ensures a == RerunCameraRequest <==> managerExists && key == "camera"
  {
    if !managerExists then Ignored
    else if key == "video" then RerunVideoSetup
    else if key == "camera" then RerunCameraRequest
    else ReloadPage
  }

  /** The retry button of a recoverable video or camera error re-runs the step that
      failed; the one of a recoverable network or timeout error reloads the page. */
  lemma RetryButtonAction(e: ErrorInfo)
    requires e.recoverable
    ensures Render(e).retryKey.Some?
    ensures RetryDispatch(Render(e).retryKey.value, true) ==
              match e.kind
              case Video => RerunVideoSetup
              case Camera => RerunCameraRequest
              case _ => ReloadPage
  {
  }
}

=== FILE: logging.dfy ===
/**
 * DebugLogger: an append-only, in-memory list of leveled log entries.
 */
module Logging {

  datatype Level = InfoLevel | WarnLevel | ErrorLevel

  datatype LogEntry = LogEntry(level: Level, message: string)

  class DebugLogger {
    /** The entries in the order they were recorded. */
    var logs: seq<LogEntry>

    constructor()
      ensures logs == []
    {
      logs := [];
    }

    /** log(message, level): appends one entry and leaves the earlier ones as they were. */
    method Log(message: string, level: Level)
      modifies this
      ensures logs == old(logs) + [LogEntry(level, message)]
      ensures logs[..|old(logs)|] == old(logs)
    {
      logs := logs + [LogEntry(level, message)];
    }

    method Error(message: string)
      modifies this
      ensures logs == old(logs) + [LogEntry(ErrorLevel, message)]
    {
      Log(message, ErrorLevel);
    }

    method Warn(message: string)
      modifies this
      ensures logs == old(logs) + [LogEntry(WarnLevel, message)]
    {
      Log(message, WarnLevel);
    }

    method Info(message: string)
      modifies this
      ensures logs == old(logs) + [LogEntry(InfoLevel, message)]
    {
      Log(message, InfoLevel);
    }
  }
}

=== FILE: notifier.dfy ===
/**
 * ErrorHandler: each handler classifies its signal (module Errors), writes one
 * error line to the debug log, shows the rendered error on the overlay (which
 * latches it), then runs every callback registered for the record's type, in
 * registration order, each inside its own try/catch.
 *
 * Callbacks are closures in the page; here a callback is a value saying what
 * it does: the two kinds the page itself registers, and a foreign callback of
 * which only whether it throws is known.
 */
module Notifier {
  import opened Options
  import opened Errors
  import opened Logging
  import opened Overlay

  datatype Callback =
      /** Logs a warning when the record is not recoverable. */
    | WarnIfUnrecoverable(warning: string)
      /** When the record is a timeout of `operation`, rewrites the overlay's detail
          line and logs a warning. */
    | WarnOnOperation(operation: string, detail: string, warning: string)
      /** A callback with no effect on the page's state; it may throw. */
    | Foreign(id: nat, throws: bool)

  /** One run of a callback, and whether it threw (the exception is swallowed). */
  datatype Invocation = Invocation(callback: Callback, threw: bool)

  function Throws(cb: Callback): bool {
    cb.Foreign? && cb.throws
  }

  function CallbackLogs(cb: Callback, info: ErrorInfo): seq<LogEntry> {
    match cb
    case WarnIfUnrecoverable(w) =>
      if !info.recoverable then [LogEntry(WarnLevel, w)] else []
    case WarnOnOperation(op, _, w) =>
      if info.signal.Elapsed? && info.signal.operation == op then [LogEntry(WarnLevel, w)] else []
    case Foreign(_, _) => []
  }

  function CallbackOverlay(s: OverlayState, cb: Callback, info: ErrorInfo): OverlayState {
    match cb
    case WarnOnOperation(op, d, _) =>
      if info.signal.Elapsed? && info.signal.operation == op then WithDetail(s, d) else s
    case _ => s
  }

  /** The log entries a list of callbacks adds, in order. */
  function LogsOf(cbs: seq<Callback>, info: ErrorInfo): seq<LogEntry> {
    if cbs == [] then [] else LogsOf(cbs[..|cbs| - 1], info) + CallbackLogs(cbs[|cbs| - 1], info)
  }

  /** The overlay after a list of callbacks has run. */
  function OverlayAfter(s: OverlayState, cbs: seq<Callback>, info: ErrorInfo): OverlayState {
    if cbs == [] then s else CallbackOverlay(OverlayAfter(s, cbs[..|cbs| - 1], info), cbs[|cbs| - 1], info)
  }

  /** The runs of a list of callbacks, in order. */
  function Invocations(cbs: seq<Callback>, info: ErrorInfo): seq<Invocation> {
    if cbs == [] then [] else Invocations(cbs[..|cbs| - 1], info) + [Invocation(cbs[|cbs| - 1], Throws(cbs[|cbs| - 1]))]
  }

  /** What a handler appends to the log: its error line, then the callbacks' warnings. */
  function NotifyLogs(cbs: seq<Callback>, info: ErrorInfo): seq<LogEntry> {
    [LogEntry(ErrorLevel, LogLine(info))] + LogsOf(cbs, info)
  }

  /** The overlay after a handler: the error shown, then the callbacks' effects. */
  function NotifyOverlay(s: OverlayState, cbs: seq<Callback>, info: ErrorInfo): OverlayState {
    OverlayAfter(AfterShowError(s, Render(info)), cbs, info)
  }

  /** Every registered callback runs exactly once, in registration order, whether or
      not an earlier one threw. */
  lemma {:induction false} InvocationsInOrder(cbs: seq<Callback>, info: ErrorInfo)
    ensures |Invocations(cbs, info)| == |cbs|
    ensures forall i | 0 <= i < |cbs| ::
              Invocations(cbs, info)[i] == Invocation(cbs[i], Throws(cbs[i]))
  {
    if cbs != [] {
      InvocationsInOrder(cbs[..|cbs| - 1], info);
    }
  }

  /** The callbacks only log warnings. */
  lemma {:induction false} CallbacksOnlyWarn(cbs: seq<Callback>, info: ErrorInfo)
    ensures forall i | 0 <= i < |LogsOf(cbs, info)| :: LogsOf(cbs, info)[i].level == WarnLevel
  {
    if cbs != [] {
      CallbacksOnlyWarn(cbs[..|cbs| - 1], info);
    }
  }

  /** The callbacks touch nothing on the overlay but its detail line. */
  lemma {:induction false} CallbacksOnlyTouchDetail(s: OverlayState, cbs: seq<Callback>, info: ErrorInfo)
    ensures OverlayAfter(s, cbs, info).(detail := s.detail) == s
  {
    if cbs != [] {
      CallbacksOnlyTouchDetail(s, cbs[..|cbs| - 1], info);
    }
  }

  /** A handler call appends exactly one error-level entry, the record's log line,
      ahead of the callbacks' warnings. */
  lemma HandlerLogsOneError(cbs: seq<Callback>, info: ErrorInfo)
    ensures NotifyLogs(cbs, info)[0] == LogEntry(ErrorLevel, LogLine(info))
    ensures forall i | 1 <= i < |NotifyLogs(cbs, info)| :: NotifyLogs(cbs, info)[i].level == WarnLevel
  {
    CallbacksOnlyWarn(cbs, info);
  }

  /** The callbacks keep the overlay's invariant. */
  lemma {:induction false} CallbacksKeepInv(s: OverlayState, cbs: seq<Callback>, info: ErrorInfo)
    requires Inv(s)
    ensures Inv(OverlayAfter(s, cbs, info))
  {
    if cbs != [] {
      CallbacksKeepInv(s, cbs[..|cbs| - 1], info);
    }
  }

  /** On a created overlay a handler call latches it and leaves its own content on
      display; the percentage, fill and visibility are those of the state before. */
  lemma NotifyLatches(s: OverlayState, cbs: seq<Callback>, info: ErrorInfo)
    ensures Inv(s) ==> Inv(NotifyOverlay(s, cbs, info))
    ensures Inv(s) && s.mounted ==>
              var r := NotifyOverlay(s, cbs, info);
              && Inv(r) && r.hasError && r.errorView == Some(Render(info)) && r.timer == NoTimer
              && r.shown == s.shown && r.fill == s.fill && r.faded == s.faded
              && r.hidden == s.hidden && r.pendingHides == s.pendingHides
  {
    var t := AfterShowError(s, Render(info));
    if Inv(s) {
      CallbacksKeepInv(t, cbs, info);
    }
    CallbacksOnlyTouchDetail(t, cbs, info);
    var r := NotifyOverlay(s, cbs, info);
    assert r.(detail := t.detail) == t;
  }

  class ErrorHandler {
    const display: LoadingAnimationManager?
    const logger: DebugLogger?
    /** `errorCallbacks`: the callbacks registered per type. */
    var callbacks: map<ErrorType, seq<Callback>>
    /** Every callback run so far, in order. */
    ghost var invoked: seq<Invocation>

    function Registered(kind: ErrorType): seq<Callback>
      reads this
    {
      if kind in callbacks then callbacks[kind] else []
    }

    constructor(display: LoadingAnimationManager?, logger: DebugLogger?)
      ensures this.display == display && this.logger == logger
      ensures callbacks == map[] && invoked == []
    {
      this.display := display;
      this.logger := logger;
      callbacks := map[];
      invoked := [];
    }

    /** on(errorType, callback): appends to that type's list, creating it if needed. */
    method On(kind: ErrorType, cb: Callback)
      modifies this`callbacks
      ensures Registered(kind) == old(Registered(kind)) + [cb]
      ensures forall k :: k != kind ==> Registered(k) == old(Registered(k))
      ensures callbacks == old(callbacks)[kind := Registered(kind)]
    {
      if kind !in callbacks {
        callbacks := callbacks[kind := []];
      }
      callbacks := callbacks[kind := callbacks[kind] + [cb]];
    }

    /** The effect of one handler call on the log, the overlay and the callbacks run. */
    twostate predicate Notified(info: ErrorInfo)
      reads this, logger, display
    {
      && (logger != null ==> logger.logs == old(logger.logs) + NotifyLogs(Registered(info.kind), info))
      && (display != null ==> display.State() == NotifyOverlay(old(display.State()), Registered(info.kind), info))
      && invoked == old(invoked) + Invocations(Registered(info.kind), info)
    }

    method HandleVideoError(error: Option<MediaError>) returns (info: ErrorInfo)
      modifies this`invoked, logger, display
      ensures info == ClassifyVideo(error)
      ensures Notified(info)
    {
      info := ClassifyVideo(error);
      LogError(info);
      DisplayError(info);
      ExecuteCallbacks(Video, info);
    }

    method HandleCameraError(error: RawError) returns (info: ErrorInfo)
      modifies this`invoked, logger, display
      ensures info == ClassifyCamera(error)
      ensures Notified(info)
    {
      info := ClassifyCamera(error);
      LogError(info);
      DisplayError(info);
      ExecuteCallbacks(Camera, info);
    }

    method HandleNetworkError(url: string, status: nat) returns (info: ErrorInfo)
      modifies this`invoked, logger, display
      ensures info == ClassifyNetwork(url, status)
      ensures Notified(info)
    {
      info := ClassifyNetwork(url, status);
      LogError(info);
      DisplayError(info);
      ExecuteCallbacks(Network, info);
    }

    method HandleTimeout(operation: string, duration: nat) returns (info: ErrorInfo)
      modifies this`invoked, logger, display
      ensures info == ClassifyTimeout(operation, duration)
      ensures Notified(info)
    {
      info := ClassifyTimeout(operation, duration);
      LogError(info);
      DisplayError(info);
      ExecuteCallbacks(Timeout, info);
    }

    /** logError: one error-level line, when there is a logger. */
    method LogError(info: ErrorInfo)
      modifies logger
      ensures logger != null ==> logger.logs == old(logger.logs) + [LogEntry(ErrorLevel, LogLine(info))]
    {
      if logger != null {
        logger.Error(LogLine(info));
      }
    }

    /** displayError: renders the record onto the overlay, when there is one. */
    method DisplayError(info: ErrorInfo)
      modifies display
      ensures display != null ==> display.State() == AfterShowError(old(display.State()), Render(info))
    {
      if display == null {
        return;
      }
      var view := Render(info);
      display.ShowErrorMessage(view);
    }

    /** executeCallbacks: runs the type's callbacks in order; an exception thrown by
        one is caught and the loop goes on. */
    method ExecuteCallbacks(kind: ErrorType, info: ErrorInfo)
      requires info.kind == kind
      modifies this`invoked, logger, display
      ensures logger != null ==> logger.logs == old(logger.logs) + LogsOf(Registered(kind), info)
      ensures display != null ==> display.State() == OverlayAfter(old(display.State()), Registered(kind), info)
      ensures invoked == old(invoked) + Invocations(Registered(kind), info)
    {
      var cbs := Registered(kind);
      var i := 0;
      while i < |cbs|
        invariant 0 <= i <= |cbs|
        invariant logger != null ==> logger.logs == old(logger.logs) + LogsOf(cbs[..i], info)
        invariant display != null ==> display.State() == OverlayAfter(old(display.State()), cbs[..i], info)
        invariant invoked == old(invoked) + Invocations(cbs[..i], info)
      {
        var threw := RunCallback(cbs[i], info);
        invoked := invoked + [Invocation(cbs[i], threw)];
        assert cbs[..i + 1][..i] == cbs[..i];
        i := i + 1;
      }
      assert cbs[..i] == cbs;
    }

    /** One callback; returns whether it threw. */
    method RunCallback(cb: Callback, info: ErrorInfo) returns (threw: bool)
      modifies logger, display
      ensures threw == Throws(cb)
      ensures logger != null ==> logger.logs == old(logger.logs) + CallbackLogs(cb, info)
      ensures display != null ==> display.State() == CallbackOverlay(old(display.State()), cb, info)
    {
      threw := false;
      match cb
      case WarnIfUnrecoverable(w) =>
        if !info.recoverable && logger != null {
          logger.Warn(w);
        }
      case WarnOnOperation(op, d, w) =>
        if info.signal.Elapsed? && info.signal.operation == op {
          if display != null {
            display.UpdateDetail(d);
          }
          if logger != null {
            logger.Warn(w);
          }
        }
      case Foreign(_, t) =>
        threw := t;
    }
  }
}

=== FILE: options.dfy ===
/** The optional value used wherever the page works with `null` or `undefined`. */
module Options {
  datatype Option<+T> = None | Some(value: T)
}

=== FILE: overlay.dfy ===
/**
 * LoadingAnimationManager: the full-screen loading overlay. It shows a status
 * line, a detail line, a fill height and a percentage that an interval timer
 * animates toward the last target in 20 ticks; once an error has been shown a
 * latch (`hasError`) makes progress updates, animations and hiding no-ops.
 *
 * The overlay's state is first described as a value (OverlayState) with one
 * function per operation; the class below updates its fields in place and each
 * of its methods is proved to follow the function of the same operation.
 */
module Overlay {
  import opened Options
  import opened Errors

  /** The interval animation runs this many ticks (600 ms in 30 ms steps). */
  const Steps: nat := 20

  const InitialStatus := "ARアプリを起動中..."
  const InitialDetail := "初期化しています..."

  /** The `animationTimer` field: no handle; a live interval that has run `count`
      ticks of the animation from `start` to `target`; or a handle whose interval
      was cleared without the field being reset. */
  datatype Timer = NoTimer | Running(start: int, target: int, count: nat) | Cleared

  /** The letters under the percentage: LOADING..., or ERROR once an error is shown. */
  datatype Indicator = LoadingLetters | ErrorLetters

  /**
   * `mounted`: the overlay and its elements exist (create() has run).
   * `shown`: the integer in the percentage text; `fill`: the fill height in percent.
   * `faded`: opacity was set to 0 by hide(); `pendingHides`: hide() timers not yet
   * fired; `hidden`: the overlay carries the `hidden` class.
   */
  datatype OverlayState = OverlayState(
    mounted: bool,
    status: string,
    detail: string,
    shown: int,
    fill: int,
    timer: Timer,
    hasError: bool,
    indicator: Indicator,
    errorView: Option<ErrorView>,
    faded: bool,
    pendingHides: nat,
    hidden: bool)

  /** The state the constructor leaves: no elements yet. */
  const Unmounted := OverlayState(false, "", "", 0, 0, NoTimer, false, LoadingLetters, None, false, 0, false)

  /** What every reachable state satisfies. */
  ghost predicate Inv(s: OverlayState) {
    && (s.timer.Running? ==> s.mounted && !s.hasError && s.timer.count < Steps)
    && (s.hasError ==> s.mounted && s.indicator == ErrorLetters && s.errorView.Some? && s.timer == NoTimer)
    && (!s.mounted ==> s == Unmounted)
  }

  /** The displayed value after k ticks of an animation from start to target,
      before rounding: start plus k increments of (target - start) / 20. */
  function Frame(start: int, target: int, k: nat): real {
    start as real + k as real * ((target - start) as real / Steps as real)
  }

  /** Math.round: the nearest integer, halves rounded up. */
  function Round(x: real): (r: int)
    ensures r as real <= x + 0.5 < r as real + 1.0
  {
    (x + 0.5).Floor
  }

  // ---------------------------------------------------------------------------
  // One function per operation

  /** create(): builds the overlay with its initial texts and 0%. */
  function Mounted(s: OverlayState): (r: OverlayState)
    requires Inv(s) && !s.mounted
    ensures Inv(r) && r.mounted && !r.hasError && r.shown == 0
    ensures r.status == InitialStatus && r.detail == InitialDetail
  {
    s.(mounted := true, status := InitialStatus, detail := InitialDetail, shown := 0, fill := 0)
  }

  /** updateStatus: overwrites the status line whenever it exists, latch or not. */
  function WithStatus(s: OverlayState, text: string): (r: OverlayState)
    ensures s.mounted ==> r.status == text
    ensures r.(status := s.status) == s
    ensures Inv(s) ==> Inv(r)
  {
    if s.mounted then s.(status := text) else s
  }

  /** updateDetail: overwrites the detail line whenever it exists, latch or not. */
  function WithDetail(s: OverlayState, text: string): (r: OverlayState)
    ensures s.mounted ==> r.detail == text
    ensures r.(detail := s.detail) == s
    ensures Inv(s) ==> Inv(r)
  {
    if s.mounted then s.(detail := text) else s
  }

  /** animatePercentage: replaces any running animation by a new one that starts
      from the value on display; does nothing once latched. */
  function AfterAnimate(s: OverlayState, target: int): (r: OverlayState)
    ensures s.hasError || !s.mounted ==> r == s
    ensures !s.hasError && s.mounted ==> r.timer == Running(s.shown, target, 0)
    ensures r.(timer := s.timer) == s
    ensures Inv(s) ==> Inv(r)
  {
    if s.hasError || !s.mounted then s else s.(timer := Running(s.shown, target, 0))
  }

  /** updateProgress: sets the fill height and animates the percentage; does nothing once latched. */
  function AfterProgress(s: OverlayState, percent: int): (r: OverlayState)
    ensures s.hasError ==> r == s
    ensures !s.hasError && s.mounted ==> r.fill == percent && r.timer == Running(s.shown, percent, 0)
    ensures r.(fill := s.fill, timer := s.timer) == s
    ensures Inv(s) ==> Inv(r)
  {
    if s.hasError then s
    else AfterAnimate(if s.mounted then s.(fill := percent) else s, percent)
  }

  /** One firing of the animation interval: the last tick lands exactly on the
      target and drops the timer. */
  function AfterTick(s: OverlayState): (r: OverlayState)
    ensures !s.timer.Running? ==> r == s
    ensures Inv(s) ==> Inv(r)
  {
    match s.timer
    case Running(a, b, k) =>
      if k + 1 >= Steps then s.(shown := b, timer := NoTimer)
      else s.(shown := Round(Frame(a, b, k + 1)), timer := Running(a, b, k + 1))
    case _ => s
  }

  /** hide(): fades the overlay out and schedules the final hiding; does nothing once latched. */
  function AfterHide(s: OverlayState): (r: OverlayState)
    ensures s.hasError ==> r == s
    ensures !s.hasError && s.mounted ==> r.faded && r.pendingHides == s.pendingHides + 1
    ensures !s.mounted ==> r == s
    ensures r.(faded := s.faded, pendingHides := s.pendingHides) == s
    ensures Inv(s) ==> Inv(r)
  {
    if s.hasError then s
    else if s.mounted then s.(faded := true, pendingHides := s.pendingHides + 1)
    else s
  }

  /** The timer hide() scheduled fires: the overlay gets the hidden class and the
      animation interval is cleared (its handle is left in place). The latch is
      not consulted: a hide() issued before the error still completes. */
  function AfterHideTimer(s: OverlayState): (r: OverlayState)
    ensures s.pendingHides > 0 ==> r.hidden && r.pendingHides == s.pendingHides - 1 && !r.timer.Running?
    ensures s.pendingHides == 0 ==> r == s
    ensures s.pendingHides > 0 ==> r.timer == (if s.timer.Running? then Cleared else s.timer)
    ensures r.(hidden := s.hidden, pendingHides := s.pendingHides, timer := s.timer) == s
    ensures Inv(s) ==> Inv(r)
  {
    if s.pendingHides == 0 then s
    else s.(hidden := true, pendingHides := s.pendingHides - 1,
            timer := if s.timer.Running? then Cleared else s.timer)
  }

  /** showErrorMessage: sets the latch, drops the animation timer, swaps the
      LOADING letters for ERROR and shows the content. Needs the overlay to exist. */
  function AfterShowError(s: OverlayState, view: ErrorView): (r: OverlayState)
    ensures s.mounted ==> r.hasError && r.timer == NoTimer && r.errorView == Some(view)
    ensures s.mounted ==> r.(hasError := s.hasError, timer := s.timer, indicator := s.indicator, errorView := s.errorView) == s
    ensures !s.mounted ==> r == s
    ensures Inv(s) ==> Inv(r)
  {
    if s.mounted then s.(hasError := true, timer := NoTimer, indicator := ErrorLetters, errorView := Some(view))
    else s
  }

  // ---------------------------------------------------------------------------
  // Runs of events

  datatype OverlayEvent =
    | StatusSet(text: string)
    | DetailSet(text: string)
    | ProgressSet(percent: int)
    | AnimationStarted(target: int)
    | Ticked
    | HideCalled
    | HideTimerFired
    | ErrorShown(view: ErrorView)

  function Step(s: OverlayState, e: OverlayEvent): OverlayState {
    match e
    case StatusSet(t) => WithStatus(s, t)
    case DetailSet(t) => WithDetail(s, t)
    case ProgressSet(p) => AfterProgress(s, p)
    case AnimationStarted(p) => AfterAnimate(s, p)
    case Ticked => AfterTick(s)
    case HideCalled => AfterHide(s)
    case HideTimerFired => AfterHideTimer(s)
    case ErrorShown(v) => AfterShowError(s, v)
  }

  function Run(s: OverlayState, es: seq<OverlayEvent>): OverlayState
    decreases |es|
  {
    if es == [] then s else Run(Step(s, es[0]), es[1..])
  }

  /** n firings of the animation interval. */
  function Ticks(s: OverlayState, n: nat): OverlayState
    decreases n
  {
    if n == 0 then s else Ticks(AfterTick(s), n - 1)
  }

  /** What the latch keeps of the state it was set in: the percentage, the fill,
      the fade and the hidden class, and no animation running. */
  ghost predicate Frozen(a: OverlayState, b: OverlayState) {
    && b.mounted && b.hasError && b.timer == NoTimer && b.indicator == ErrorLetters
    && b.shown == a.shown && b.fill == a.fill
    && b.faded == a.faded && b.hidden == a.hidden && b.pendingHides == a.pendingHides
  }

  lemma StepPreservesInv(s: OverlayState, e: OverlayEvent)
    requires Inv(s)
    ensures Inv(Step(s, e))
  {
  }

  /** Once an error is shown (and no earlier hide() is still pending), no sequence of
      later calls changes the percentage, the fill, the fade or the hidden class, and
      no animation runs again; the latch itself is never cleared. */
  lemma {:induction false} LatchIsPermanent(s: OverlayState, es: seq<OverlayEvent>)
    requires Inv(s) && s.hasError && s.pendingHides == 0
    ensures Frozen(s, Run(s, es)) && Inv(Run(s, es))
    decreases |es|
  {
    if es != [] {
      var t := Step(s, es[0]);
      StepPreservesInv(s, es[0]);
      assert Frozen(s, t);
      LatchIsPermanent(t, es[1..]);
    }
  }

  /** Once an error is shown, `animationTimer` stays null and the latch stays set,
      whatever follows, a hide() issued before the error included. */
  lemma {:induction false} LatchedTimerStaysNull(s: OverlayState, es: seq<OverlayEvent>)
    requires Inv(s) && s.hasError
    ensures Run(s, es).timer == NoTimer && Run(s, es).hasError && Inv(Run(s, es))
    decreases |es|
  {
    if es != [] {
      StepPreservesInv(s, es[0]);
      LatchedTimerStaysNull(Step(s, es[0]), es[1..]);
    }
  }

  /** Ticks of an animation that has not reached its last step follow the frames. */
  lemma {:induction false} TicksFollowFrames(s: OverlayState, n: nat)
    requires s.timer.Running? && s.timer.count + n < Steps
    ensures n > 0 ==>
              Ticks(s, n) == s.(shown := Round(Frame(s.timer.start, s.timer.target, s.timer.count + n)),
                                timer := s.timer.(count := s.timer.count + n))
    ensures n == 0 ==> Ticks(s, n) == s
    decreases n
  {
    if n > 0 {
      var t := AfterTick(s);
      TicksFollowFrames(t, n - 1);
    }
  }

  /** The remaining ticks of a running animation end exactly on its target and
      drop the timer. */
  lemma {:induction false} TicksReachTarget(s: OverlayState)
    requires s.timer.Running? && s.timer.count < Steps
    ensures Ticks(s, Steps - s.timer.count) == s.(shown := s.timer.target, timer := NoTimer)
    decreases Steps - s.timer.count
  {
    if s.timer.count + 1 < Steps {
      TicksReachTarget(AfterTick(s));
    }
  }

  /** Ticks after the animation has finished change nothing. */
  lemma {:induction false} IdleTicks(s: OverlayState, n: nat)
    requires !s.timer.Running?
    ensures Ticks(s, n) == s
    decreases n
  {
    if n > 0 {
      IdleTicks(AfterTick(s), n - 1);
    }
  }

  /** Before the last tick, tick k of an animation started from the displayed value
      shows round(start + k * (target - start) / 20) and the timer keeps running. */
  lemma AnimationFrames(s: OverlayState, target: int, k: nat)
    requires Inv(s) && s.mounted && !s.hasError && 0 < k < Steps
    ensures Ticks(AfterAnimate(s, target), k).shown == Round(Frame(s.shown, target, k))
    ensures Ticks(AfterAnimate(s, target), k).timer == Running(s.shown, target, k)
  {
    TicksFollowFrames(AfterAnimate(s, target), k);
  }

  /** Convergence: 20 ticks after a progress update issued before the latch, the
      percentage on display equals the new target, the fill is set and the timer
      is gone; further ticks keep it so. */
  lemma ProgressConverges(s: OverlayState, percent: int, extra: nat)
    requires Inv(s) && s.mounted && !s.hasError
    ensures Ticks(AfterProgress(s, percent), Steps + extra).shown == percent
    ensures Ticks(AfterProgress(s, percent), Steps + extra).fill == percent
    ensures Ticks(AfterProgress(s, percent), Steps + extra).timer == NoTimer
  {
    var t := AfterProgress(s, percent);
    TicksReachTarget(t);
    TicksAdd(t, Steps, extra);
    IdleTicks(Ticks(t, Steps), extra);
  }

  lemma {:induction false} TicksAdd(s: OverlayState, m: nat, n: nat)
    ensures Ticks(s, m + n) == Ticks(Ticks(s, m), n)
    decreases m
  {
    if m > 0 {
      TicksAdd(AfterTick(s), m - 1, n);
    }
  }

  /** Every frame of an animation lies between its start and its target. */
  lemma FrameBetween(a: int, b: int, k: nat)
    requires k <= Steps
    ensures a <= b ==> a <= Round(Frame(a, b, k)) <= b
    ensures b <= a ==> b <= Round(Frame(a, b, k)) <= a
  {
    var x := Frame(a, b, k);
    ScaleBetween(k as real, (b - a) as real);
    assert a <= b ==> a as real <= x <= b as real;
    assert b <= a ==> b as real <= x <= a as real;
  }

  /** k of 20 increments of n / 20 lie between 0 and n. */
  lemma ScaleBetween(k: real, n: real)
    requires 0.0 <= k <= Steps as real
    ensures 0.0 <= n ==> 0.0 <= k * (n / Steps as real) <= n
    ensures n <= 0.0 ==> n <= k * (n / Steps as real) <= 0.0
  {
    var d := n / Steps as real;
    assert Steps as real * d == n;
    assert k * d + (Steps as real - k) * d == n;
    if 0.0 <= n {
      assert 0.0 <= d;
      assert 0.0 <= k * d && 0.0 <= (Steps as real - k) * d;
    } else {
      assert d <= 0.0;
      assert k * d <= 0.0 && (Steps as real - k) * d <= 0.0;
    }
  }

  // ---------------------------------------------------------------------------
  // The class

  class LoadingAnimationManager {
    var mounted: bool
    var statusText: string
    var detailText: string
    var percentage: int
    var fillHeight: int
    var animationTimer: Timer
    var hasError: bool
    var indicator: Indicator
    var errorContent: Option<ErrorView>
    var faded: bool
    var pendingHides: nat
    var hidden: bool

    function State(): OverlayState
      reads this
    {
      OverlayState(mounted, statusText, detailText, percentage, fillHeight, animationTimer,
                   hasError, indicator, errorContent, faded, pendingHides, hidden)
    }

    constructor()
      ensures State() == Unmounted
    {
      mounted, statusText, detailText := false, "", "";
      percentage, fillHeight := 0, 0;
      animationTimer, hasError, indicator, errorContent := NoTimer, false, LoadingLetters, None;
      faded, pendingHides, hidden := false, 0, false;
    }

    method Create()
      requires Inv(State()) && !mounted
      modifies this
      ensures State() == Mounted(old(State()))
    {
      mounted := true;
      statusText, detailText := InitialStatus, InitialDetail;
      percentage, fillHeight := 0, 0;
    }

    method UpdateStatus(text: string)
      modifies this
      ensures State() == WithStatus(old(State()), text)
    {
      if mounted {
        statusText := text;
      }
    }

    method UpdateDetail(text: string)
      modifies this
      ensures State() == WithDetail(old(State()), text)
    {
      if mounted {
        detailText := text;
      }
    }

    method UpdateProgress(percent: int)
      modifies this
      ensures State() == AfterProgress(old(State()), percent)
      ensures old(hasError) ==> State() == old(State())
    {
      if hasError {
        return;
      }
      if mounted {
        fillHeight := percent;
      }
      AnimatePercentage(percent);
    }

    method AnimatePercentage(target: int)
      modifies this
      ensures State() == AfterAnimate(old(State()), target)
      ensures old(hasError) ==> State() == old(State())
    {
      if hasError || !mounted {
        return;
      }
      var current := percentage;
      // any running interval is cleared before the new one starts
      animationTimer := Running(current, target, 0);
    }

    /** One firing of the animation interval. */
    method Tick()
      modifies this
      ensures State() == AfterTick(old(State()))
    {
      if animationTimer.Running? {
        var count := animationTimer.count + 1;
        var current := Frame(animationTimer.start, animationTimer.target, count);
        if count >= Steps {
          current := animationTimer.target as real;
          animationTimer := NoTimer;
        } else {
          animationTimer := animationTimer.(count := count);
        }
        percentage := Round(current);
      }
    }

    method Hide()
      modifies this
      ensures State() == AfterHide(old(State()))
      ensures old(hasError) ==> State() == old(State())
    {
      if hasError {
        return;
      }
      if mounted {
        faded := true;
        pendingHides := pendingHides + 1;
      }
    }

    /** The 1-second timer scheduled by Hide fires. */
    method HideTimerFires()
      requires pendingHides > 0
      modifies this
      ensures State() == AfterHideTimer(old(State()))
    {
      hidden := true;
      pendingHides := pendingHides - 1;
      if animationTimer.Running? {
        animationTimer := Cleared;
      }
    }

    method ShowErrorMessage(view: ErrorView)
      modifies this
      ensures State() == AfterShowError(old(State()), view)
      ensures old(mounted) ==> hasError
    {
      if mounted {
        hasError := true;
        if animationTimer != NoTimer {
          animationTimer := NoTimer;
        }
        indicator := ErrorLetters;
        errorContent := Some(view);
      }
    }
  }
}

=== FILE: page_model.dfy ===
/**
 * The loading sequence of the page (ARLoadingManager) as a state machine over
 * values. A Session holds the overlay, the debug log, the callbacks run so far,
 * the manager's own fields (`videoElement`, `videoTimeout`) and, in place of the
 * browser's timer and event queues, what is still pending: a library poll, camera
 * requests, scene retries, the scene's `loaded` listeners still to run, HEAD probes,
 * the media listeners, the 15-second timeout and the settle timers scheduled by
 * `canplay`.
 *
 * Each browser event is a function from the session before to the session
 * after; the page's DOM at the time of an event is an argument (Page).
 */
module PageModel {
  import opened Options
  import opened Decimal
  import opened Errors
  import opened Logging
  import opened Overlay
  import opened Notifier

  /** The video element: only its source matters here. */
  datatype VideoElement = VideoElement(src: string)

  /** The a-scene element and whether it has already loaded. */
  datatype SceneElement = SceneElement(hasLoaded: bool)

  /** What the page holds when an event runs: whether the AR library is loaded,
      the scene element and the video element, if present. */
  datatype Page = Page(aframeLoaded: bool, scene: Option<SceneElement>, video: Option<VideoElement>)

  /** How a camera request settles: a stream with so many video tracks, or a rejection. */
  datatype CameraOutcome = Granted(videoTracks: nat) | Rejected(error: RawError)

  /** How a HEAD probe of the video file settles: a response (with its two headers as
      they print) or a failed fetch with its error message. */
  datatype ProbeOutcome = Responded(status: nat, contentType: string, contentLength: string) | FetchFailed(message: string)

  datatype Session = Session(
    overlay: OverlayState,
    logs: seq<LogEntry>,
    invoked: seq<Invocation>,
    videoElement: Option<VideoElement>,
    videoTimeout: bool,
    timeoutArmed: bool,
    libraryPollPending: bool,
    cameraRequests: nat,
    sceneRetries: nat,
    sceneListeners: nat,
    probes: seq<string>,
    videoListeners: bool,
    settleTimers: nat)

  /** VIDEO_TIMEOUT, in seconds. */
  const VideoTimeoutSeconds: nat := 15

  /** The error the zero-track branch throws: it evaluates an identifier that is not
      in scope, so the engine raises a ReferenceError (V8's wording). */
  const UndefinedReference := RawError("ReferenceError", "error is not defined")

  const InitMsg := "ARLoadingManager初期化開始"
  const LibraryCheckMsg := "ライブラリ読み込み確認中..."
  const LibraryReadyMsg := "A-Frame読み込み完了"
  const LibraryWaitMsg := "A-Frame読み込み待機中..."
  const CameraRequestMsg := "カメラアクセス要求中..."
  const CameraRequestStatus := "カメラアクセスを要求中..."
  const CameraGrantedMsg := "カメラアクセス許可取得"
  const ARInitMsg := "AR初期化開始..."
  const ARInitStatus := "AR機能を初期化中..."
  const SceneFoundMsg := "A-Frameシーン要素発見"
  const SceneLoadedMsg := "A-Frameシーン読み込み完了"
  const SceneAlreadyLoadedMsg := "A-Frameシーン既に読み込み済み"
  const SceneMissingMsg := "A-Frameシーン要素が見つかりません - 再試行"
  const VideoSetupMsg := "動画セットアップ開始..."
  const VideoSetupStatus := "動画を読み込み中..."
  const VideoMissingMsg := "動画要素が見つかりません"
  const VideoSourcePrefix := "動画ソース: "
  const ProbeStartPrefix := "動画ファイル存在確認: "
  const ProbeOkPrefix := "動画ファイル確認OK: "
  const ProbeErrorPrefix := "動画ファイル確認エラー: "
  const LoadStartMsg := "動画: loadstart - 読み込み開始"
  const LoadStartDetail := "動画データを取得中..."
  const MetadataPrefix := "動画メタデータ: "
  const MetadataDetail := "動画情報を取得しました"
  const CanPlayMsg := "動画: canplay - 再生可能"
  const ReadyStatus := "AR準備完了！"
  const CompleteMsg := "ARローディング完了"
  const VideoFailedWarning := "ビデオの読み込みに失敗しました"
  const CameraFailedWarning := "カメラの読み込みに失敗しました"
  const SlowVideoDetail := "動画の読み込みに時間がかかっています"
  const SlowVideoWarning := "動画読み込みが遅延しています"

  /** The callbacks setupErrorCallbacks registers; the timeout one is
      showVideoTimeoutWarning. */
  const PageCallbacks: map<ErrorType, seq<Callback>> := map[
    Video := [WarnIfUnrecoverable(VideoFailedWarning)],
    Camera := [WarnIfUnrecoverable(CameraFailedWarning)],
    Timeout := [WarnOnOperation("video", SlowVideoDetail, SlowVideoWarning)]]

  function Callbacks(kind: ErrorType): seq<Callback> {
    if kind in PageCallbacks then PageCallbacks[kind] else []
  }

  /** The session right after the manager's constructor. */
  const Constructed := Session(Unmounted, [], [], None, false, false, false, 0, 0, 0, [], false, 0)

  // ---------------------------------------------------------------------------
  // Building blocks

  function Logged(s: Session, level: Level, message: string): Session {
    s.(logs := s.logs + [LogEntry(level, message)])
  }

  function Progressed(s: Session, percent: int): Session {
    s.(overlay := AfterProgress(s.overlay, percent))
  }

  function StatusShown(s: Session, text: string): Session {
    s.(overlay := WithStatus(s.overlay, text))
  }

  function DetailShown(s: Session, text: string): Session {
    s.(overlay := WithDetail(s.overlay, text))
  }

  /** One ErrorHandler call with the page's callbacks: the error line and the
      callbacks' warnings are logged, the overlay is latched on the rendered record
      with its percentage, fill and visibility as they were, and the callbacks run. */
  function Notified(s: Session, info: ErrorInfo): (r: Session)
    ensures r.(logs := s.logs, overlay := s.overlay, invoked := s.invoked) == s
    ensures r.logs == s.logs + NotifyLogs(Callbacks(info.kind), info)
    ensures r.invoked == s.invoked + Invocations(Callbacks(info.kind), info)
    ensures Inv(s.overlay) ==> Inv(r.overlay)
    ensures Inv(s.overlay) && s.overlay.mounted ==>
              && Inv(r.overlay) && r.overlay.hasError && r.overlay.errorView == Some(Render(info))
              && r.overlay.timer == NoTimer
              && r.overlay.shown == s.overlay.shown && r.overlay.fill == s.overlay.fill
              && r.overlay.faded == s.overlay.faded && r.overlay.hidden == s.overlay.hidden
              && r.overlay.pendingHides == s.overlay.pendingHides
  {
    var cbs := Callbacks(info.kind);
    NotifyLatches(s.overlay, cbs, info);
    s.(logs := s.logs + NotifyLogs(cbs, info),
       overlay := NotifyOverlay(s.overlay, cbs, info),
       invoked := s.invoked + Invocations(cbs, info))
  }

  /** Kept(a, b): b is latched, valid, and shows a's percentage, fill and visibility. */
  ghost predicate Kept(a: OverlayState, b: OverlayState) {
    Inv(b) && Frozen(a, b)
  }

  /** An overlay showing an error, with no earlier hide() still pending. */
  ghost predicate Latched(o: OverlayState) {
    Inv(o) && o.hasError && o.pendingHides == 0
  }

  /** What every event respects: the overlay's invariant holds on, a latched overlay
      keeps its percentage, fill and visibility, and a timeout that is no longer
      armed stays so. */
  ghost predicate Respects(s: Session, r: Session) {
    && (Inv(s.overlay) ==> Inv(r.overlay))
    && (Latched(s.overlay) ==> Kept(s.overlay, r.overlay))
    && (!s.timeoutArmed ==> !r.timeoutArmed)
  }

  // ---------------------------------------------------------------------------
  // The steps of the sequence

  /** init(): create the overlay, log, start the sequence, arm the timeout. The page
      starts at 20%, or at 40% with the camera requested when the library is there. */
  function AfterInit(s: Session, page: Page): (r: Session)
    requires Inv(s.overlay) && !s.overlay.mounted
    ensures r.videoTimeout && r.timeoutArmed
    ensures Inv(r.overlay) && r.overlay.mounted && !r.overlay.hasError
    ensures |r.logs| > |s.logs| && r.logs[..|s.logs| + 1] == s.logs + [LogEntry(InfoLevel, InitMsg)]
    ensures r.overlay.fill == (if page.aframeLoaded then 40 else 20)
    ensures r.cameraRequests == s.cameraRequests + (if page.aframeLoaded then 1 else 0)
    ensures r.libraryPollPending <==> s.libraryPollPending || !page.aframeLoaded
  {
    TimeoutsSet(Started(Logged(s.(overlay := Mounted(s.overlay)), InfoLevel, InitMsg), page))
  }

  /** startLoadingSequence: 20%, then the first library check. */
  function Started(s: Session, page: Page): (r: Session)
    ensures r.timeoutArmed == s.timeoutArmed && r.videoTimeout == s.videoTimeout
    ensures Inv(s.overlay) ==> Inv(r.overlay)
    ensures Inv(s.overlay) && s.overlay.hasError ==> Kept(s.overlay, r.overlay)
    ensures |r.logs| > |s.logs| && r.logs[..|s.logs| + 1] == s.logs + [LogEntry(InfoLevel, LibraryCheckMsg)]
    ensures Inv(s.overlay) && s.overlay.mounted && !s.overlay.hasError ==>
              && Inv(r.overlay) && !r.overlay.hasError
              && r.overlay.fill == (if page.aframeLoaded then 40 else 20)
    ensures r.cameraRequests == s.cameraRequests + (if page.aframeLoaded then 1 else 0)
    ensures r.libraryPollPending <==> s.libraryPollPending || !page.aframeLoaded
  {
    LibraryChecked(Progressed(Logged(s, InfoLevel, LibraryCheckMsg), 20), page)
  }

  /** checkLibraries: on a loaded library 40% and the camera request, otherwise
      another check in 100 ms. */
  function LibraryChecked(s: Session, page: Page): (r: Session)
    ensures r.timeoutArmed == s.timeoutArmed && r.videoTimeout == s.videoTimeout
    ensures Inv(s.overlay) ==> Inv(r.overlay)
    ensures Inv(s.overlay) && s.overlay.hasError ==> Kept(s.overlay, r.overlay)
    ensures |r.logs| > |s.logs| && r.logs[..|s.logs|] == s.logs
  {
    if page.aframeLoaded then CameraRequested(Progressed(Logged(s, InfoLevel, LibraryReadyMsg), 40))
    else Logged(s, InfoLevel, LibraryWaitMsg).(libraryPollPending := true)
  }

  /** The 100 ms poll timer fires. */
  function AfterLibraryPoll(s: Session, page: Page): (r: Session)
    requires s.libraryPollPending
    ensures Respects(s, r)
  {
    LibraryChecked(s.(libraryPollPending := false), page)
  }

  /** requestCameraAccess: log, status, and one more request in flight. */
  function CameraRequested(s: Session): (r: Session)
    ensures r.timeoutArmed == s.timeoutArmed && r.videoTimeout == s.videoTimeout
    ensures Inv(s.overlay) ==> Inv(r.overlay)
  {
    StatusShown(Logged(s, InfoLevel, CameraRequestMsg), CameraRequestStatus).(cameraRequests := s.cameraRequests + 1)
  }

  /** A camera request settles. For a stream without video tracks, the `.then` handler
      (assets/script.js:460-461) names an identifier that is not in scope and throws;
      the chain's `.catch` handler then reports that exception. */
  function AfterCameraAnswer(s: Session, outcome: CameraOutcome, page: Page): (r: Session)
    requires s.cameraRequests > 0
    ensures Respects(s, r)
  {
    var s1 := s.(cameraRequests := s.cameraRequests - 1);
    match outcome
    case Granted(n) =>
      if n == 0 then Notified(s1, ClassifyCamera(UndefinedReference))
      else CameraGranted(s1, page)
    case Rejected(e) => Notified(s1, ClassifyCamera(e))
  }

  /** The rest of the `.then` handler once the stream has a video track: 60%, then
      initializeAR. While the scene is still loading the page waits at 60%. */
  function CameraGranted(s: Session, page: Page): (r: Session)
    ensures r.timeoutArmed == s.timeoutArmed && r.videoTimeout == s.videoTimeout
    ensures Inv(s.overlay) ==> Inv(r.overlay)
    ensures Inv(s.overlay) && s.overlay.hasError ==> Kept(s.overlay, r.overlay)
    ensures Inv(s.overlay) && s.overlay.mounted && !s.overlay.hasError && page.scene == Some(SceneElement(false)) ==>
              r.overlay.fill == 60 && !r.overlay.hasError && r.sceneListeners == s.sceneListeners + 1
  {
    ARInitialized(Progressed(Logged(s, InfoLevel, CameraGrantedMsg), 60), page)
  }

  /** initializeAR: with a scene, listen for `loaded` and, if it has loaded already,
      go on at once; without one, try again in 500 ms. Every call on a scene that has
      not loaded adds one more listener, each of which will run setupVideo. The
      listener added to a scene that has loaded already is not counted: its event
      has passed. */
  function ARInitialized(s: Session, page: Page): (r: Session)
    ensures r.timeoutArmed == s.timeoutArmed && r.videoTimeout == s.videoTimeout
    ensures Inv(s.overlay) ==> Inv(r.overlay)
    ensures Inv(s.overlay) && s.overlay.hasError ==> Kept(s.overlay, r.overlay)
  {
    var s1 := StatusShown(Logged(s, InfoLevel, ARInitMsg), ARInitStatus);
    match page.scene
    case None => Logged(s1, WarnLevel, SceneMissingMsg).(sceneRetries := s1.sceneRetries + 1)
    case Some(scene) =>
      var s2 := Logged(s1, InfoLevel, SceneFoundMsg);
      if scene.hasLoaded then VideoSetUp(Progressed(Logged(s2, InfoLevel, SceneAlreadyLoadedMsg), 80), page)
      else s2.(sceneListeners := s2.sceneListeners + 1)
  }

  /** The 500 ms scene retry fires. */
  function AfterSceneRetry(s: Session, page: Page): (r: Session)
    requires s.sceneRetries > 0
    ensures Respects(s, r)
  {
    ARInitialized(s.(sceneRetries := s.sceneRetries - 1), page)
  }

  /** The scene's `loaded` event reaches one of its listeners. */
  function AfterSceneLoaded(s: Session, page: Page): (r: Session)
    requires s.sceneListeners > 0
    ensures Respects(s, r)
  {
    VideoSetUp(Progressed(Logged(s.(sceneListeners := s.sceneListeners - 1), InfoLevel, SceneLoadedMsg), 80), page)
  }

  /** setupVideo: a missing element is a video error with code 0; otherwise log the
      source, start the HEAD probe and attach the media listeners. */
  function VideoSetUp(s: Session, page: Page): (r: Session)
    ensures r.timeoutArmed == s.timeoutArmed && r.videoTimeout == s.videoTimeout
    ensures Inv(s.overlay) ==> Inv(r.overlay)
    ensures Inv(s.overlay) && s.overlay.hasError ==> Kept(s.overlay, r.overlay)
  {
    var s1 := StatusShown(Logged(s, InfoLevel, VideoSetupMsg), VideoSetupStatus).(videoElement := page.video);
    match page.video
    case None => Notified(Logged(s1, ErrorLevel, VideoMissingMsg), ClassifyVideo(Some(MediaError(0))))
    case Some(v) =>
      var s2 := Logged(Logged(s1, InfoLevel, VideoSourcePrefix + v.src), InfoLevel, ProbeStartPrefix + v.src);
      s2.(probes := s2.probes + [v.src], videoListeners := true)
  }

  /** The HEAD probe number i settles (checkVideoFile after its await). */
  function AfterProbe(s: Session, i: nat, outcome: ProbeOutcome): (r: Session)
    requires i < |s.probes|
    ensures Respects(s, r)
  {
    var src := s.probes[i];
    var s1 := s.(probes := s.probes[..i] + s.probes[i + 1..]);
    match outcome
    case Responded(status, contentType, contentLength) =>
      if 200 <= status <= 299 then ProbeOk(s1, status, contentType, contentLength)
      else ProbeFailed(s1, src, status)
    case FetchFailed(message) =>
      ProbeFailed(Logged(s1, ErrorLevel, ProbeErrorPrefix + message), src, 0)
  }

  /** A probe that did not succeed is a network error for the file; a fetch that
      failed outright reports status 0. */
  function ProbeFailed(s: Session, src: string, status: nat): (r: Session)
    ensures Respects(s, r)
  {
    Notified(s, ClassifyNetwork(src, status))
  }

  /** A successful probe only logs: the status and the two headers. */
  function ProbeOk(s: Session, status: nat, contentType: string, contentLength: string): (r: Session)
    ensures r == s.(logs := r.logs)
  {
    s.(logs := s.logs + [
      LogEntry(InfoLevel, ProbeOkPrefix + NatToDecimal(status)),
      LogEntry(InfoLevel, "Content-Type: " + contentType),
      LogEntry(InfoLevel, "Content-Length: " + contentLength + " bytes")])
  }

  function AfterLoadStart(s: Session): (r: Session)
    requires s.videoListeners
    ensures Respects(s, r)
  {
    DetailShown(Logged(s, InfoLevel, LoadStartMsg), LoadStartDetail)
  }

  /** `summary` is the rest of the metadata line: size and duration as the browser prints them. */
  function AfterMetadata(s: Session, summary: string): (r: Session)
    requires s.videoListeners
    ensures Respects(s, r)
  {
    DetailShown(Logged(s, InfoLevel, MetadataPrefix + summary), MetadataDetail)
  }

  /** `canplay`: cancel the timeout, 100%, ready status, and the completion a second later. */
  function AfterCanPlay(s: Session): (r: Session)
    requires s.videoListeners
    ensures Respects(s, r)
    ensures !r.videoTimeout && r.settleTimers == s.settleTimers + 1
    ensures Inv(s.overlay) && s.overlay.mounted && !s.overlay.hasError ==>
              r.overlay.fill == 100 && r.overlay.status == ReadyStatus && r.overlay.timer == Running(s.overlay.shown, 100, 0)
  {
    var s1 := Progressed(TimeoutsCleared(Logged(s, InfoLevel, CanPlayMsg)), 100);
    StatusShown(s1, ReadyStatus).(settleTimers := s1.settleTimers + 1)
  }

  /** The media element's `error` event, with `video.error`. */
  function AfterVideoError(s: Session, error: Option<MediaError>): (r: Session)
    requires s.videoListeners
    ensures Respects(s, r)
  {
    Notified(s, ClassifyVideo(error))
  }

  /** The 15-second timeout fires. Its handle stays in `videoTimeout`. */
  function AfterVideoTimeout(s: Session): (r: Session)
    requires s.timeoutArmed
    ensures Respects(s, r)
  {
    Notified(s.(timeoutArmed := false), ClassifyTimeout("video", VideoTimeoutSeconds))
  }

  /** The settle timer scheduled by `canplay` fires: complete(). */
  function AfterSettle(s: Session): (r: Session)
    requires s.settleTimers > 0
    ensures Respects(s, r)
  {
    Completed(s.(settleTimers := s.settleTimers - 1))
  }

  /** complete(): log, cancel the timeout, hide the overlay. A latched overlay stays
      as it is; otherwise it fades out and one more hide is pending. */
  function Completed(s: Session): (r: Session)
    ensures Respects(s, r)
    ensures r.overlay == AfterHide(s.overlay)
    ensures r.(logs := s.logs, videoTimeout := s.videoTimeout, timeoutArmed := s.timeoutArmed, overlay := s.overlay) == s
    ensures !r.videoTimeout && (r.timeoutArmed <==> s.timeoutArmed && !s.videoTimeout)
    ensures r.logs == s.logs + [LogEntry(InfoLevel, CompleteMsg)]
    ensures s.overlay.hasError ==> r.overlay == s.overlay
    ensures !s.overlay.hasError && s.overlay.mounted ==>
              r.overlay.faded && r.overlay.pendingHides == s.overlay.pendingHides + 1
  {
    var s1 := TimeoutsCleared(Logged(s, InfoLevel, CompleteMsg));
    s1.(overlay := AfterHide(s1.overlay))
  }

  /** setupTimeouts: the timeout is scheduled and its handle kept; nothing else changes. */
  function TimeoutsSet(s: Session): (r: Session)
    ensures r.videoTimeout && r.timeoutArmed
    ensures r.(videoTimeout := s.videoTimeout, timeoutArmed := s.timeoutArmed) == s
  {
    s.(videoTimeout := true, timeoutArmed := true)
  }

  /** clearTimeouts: cancels the timer and drops the handle, if there is one. Without a
      handle (the timeout was cleared before) an armed timer is out of reach. */
  function TimeoutsCleared(s: Session): (r: Session)
    ensures !r.videoTimeout
    ensures r.timeoutArmed <==> s.timeoutArmed && !s.videoTimeout
    ensures r.(videoTimeout := s.videoTimeout, timeoutArmed := s.timeoutArmed) == s
  {
    if s.videoTimeout then s.(videoTimeout := false, timeoutArmed := false) else s
  }

  /** retryOperation on the page's manager; a reload leaves the session as it is
      (what follows a reload is a new page). */
  function AfterRetry(s: Session, key: string, page: Page): (r: Session)
    ensures Respects(s, r)
  {
    match RetryDispatch(key, true)
    case RerunVideoSetup => VideoSetUp(s, page)
    case RerunCameraRequest => CameraRequested(s)
    case _ => s
  }

  function AfterAnimationTick(s: Session): (r: Session)
    ensures Respects(s, r)
  {
    s.(overlay := AfterTick(s.overlay))
  }

  function AfterHideDelay(s: Session): (r: Session)
    ensures Respects(s, r)
  {
    s.(overlay := AfterHideTimer(s.overlay))
  }

  // ---------------------------------------------------------------------------
  // Runs of events

  datatype PageEvent =
    | LibraryPolled(page: Page)
    | CameraAnswered(outcome: CameraOutcome, page: Page)
    | SceneRetried(page: Page)
    | SceneLoadedEvent(page: Page)
    | ProbeAnswered(index: nat, probe: ProbeOutcome)
    | MediaLoadStart
    | MediaMetadata(summary: string)
    | MediaCanPlay
    | MediaFailed(error: Option<MediaError>)
    | TimeoutElapsed
    | SettleElapsed
    | AnimationTimerFired
    | HideDelayElapsed
    | RetryClicked(key: string, page: Page)

  /** An event the session is not waiting for does not happen: it changes nothing. */
  function Apply(s: Session, e: PageEvent): (r: Session)
    ensures Respects(s, r)
  {
    match e
    case LibraryPolled(page) => if s.libraryPollPending then AfterLibraryPoll(s, page) else s
    case CameraAnswered(o, page) => if s.cameraRequests > 0 then AfterCameraAnswer(s, o, page) else s
    case SceneRetried(page) => if s.sceneRetries > 0 then AfterSceneRetry(s, page) else s
    case SceneLoadedEvent(page) => if s.sceneListeners > 0 then AfterSceneLoaded(s, page) else s
    case ProbeAnswered(i, o) => if i < |s.probes| then AfterProbe(s, i, o) else s
    case MediaLoadStart => if s.videoListeners then AfterLoadStart(s) else s
    case MediaMetadata(m) => if s.videoListeners then AfterMetadata(s, m) else s
    case MediaCanPlay => if s.videoListeners then AfterCanPlay(s) else s
    case MediaFailed(err) => if s.videoListeners then AfterVideoError(s, err) else s
    case TimeoutElapsed => if s.timeoutArmed then AfterVideoTimeout(s) else s
    case SettleElapsed => if s.settleTimers > 0 then AfterSettle(s) else s
    case AnimationTimerFired => AfterAnimationTick(s)
    case HideDelayElapsed => AfterHideDelay(s)
    case RetryClicked(key, page) => AfterRetry(s, key, page)
  }

  function RunPage(s: Session, es: seq<PageEvent>): Session
    decreases |es|
  {
    if es == [] then s else RunPage(Apply(s, es[0]), es[1..])
  }

  // ---------------------------------------------------------------------------
  // Properties of the sequence


  /**
   * The error latch of the whole page: once any error is on display (and no
   * earlier hide() is pending), no sequence of later events (a late `canplay`
   * with its updateProgress(100), the complete() that hides the overlay, a
   * retry, further errors) changes the percentage, the fill or the visibility
   * of the overlay, and the latch is never released.
   */
  lemma {:induction false} ErrorLatchHolds(s: Session, es: seq<PageEvent>)
    requires Inv(s.overlay) && s.overlay.hasError && s.overlay.pendingHides == 0
    ensures Kept(s.overlay, RunPage(s, es).overlay)
    decreases |es|
  {
    if es != [] {
      var t := Apply(s, es[0]);
      ErrorLatchHolds(t, es[1..]);
    }
  }

  /** Every run of page events keeps the overlay's invariant. */
  lemma {:induction false} RunKeepsInv(s: Session, es: seq<PageEvent>)
    requires Inv(s.overlay)
    ensures Inv(RunPage(s, es).overlay)
    decreases |es|
  {
    if es != [] {
      RunKeepsInv(Apply(s, es[0]), es[1..]);
    }
  }

  /** Every session the page reaches from init() satisfies the overlay's invariant,
      so the latch lemmas apply to real runs: once such a run shows an error with no
      hide pending, ErrorLatchHolds covers every later event. */
  lemma ReachableInv(page: Page, es: seq<PageEvent>)
    ensures Inv(RunPage(AfterInit(Constructed, page), es).overlay)
  {
    RunKeepsInv(AfterInit(Constructed, page), es);
  }

  /** Only init() arms the timeout: once disarmed (fired or cleared), no event re-arms
      it, so the timeout error is raised at most once. */
  lemma {:induction false} TimeoutFiresAtMostOnce(s: Session, es: seq<PageEvent>)
    requires !s.timeoutArmed
    ensures !RunPage(s, es).timeoutArmed
    decreases |es|
  {
    if es != [] {
      TimeoutFiresAtMostOnce(Apply(s, es[0]), es[1..]);
    }
  }

  /** While the library is absent the camera is not requested; a check that finds it
      requests the camera once, at 40%. */
  lemma CameraOnlyAfterLibrary(s: Session, page: Page)
    requires Inv(s.overlay) && s.overlay.mounted && !s.overlay.hasError
    ensures !page.aframeLoaded ==>
              LibraryChecked(s, page).cameraRequests == s.cameraRequests && LibraryChecked(s, page).libraryPollPending
    ensures page.aframeLoaded ==>
              LibraryChecked(s, page).cameraRequests == s.cameraRequests + 1 && LibraryChecked(s, page).overlay.fill == 40
  {
  }

  /** A page where every step succeeds at once. */
  function ReadyPage(src: string): Page {
    Page(true, Some(SceneElement(true)), Some(VideoElement(src)))
  }

  /**
   * The successful sequence: init() reaches 40% and requests the camera; a stream
   * with a video track takes it through 60% to 80% and starts loading the video;
   * `canplay` sets 100% and cancels the timeout; complete() fades the overlay out and
   * the delayed hide finishes it. No error is shown on the way.
   */
  lemma SuccessfulLoad(src: string, tracks: nat)
    requires tracks > 0
    ensures var s1 := AfterInit(Constructed, ReadyPage(src));
            && s1.overlay.fill == 40 && s1.cameraRequests == 1 && s1.timeoutArmed
            && var s2 := AfterCameraAnswer(s1, Granted(tracks), ReadyPage(src));
               && s2.overlay.fill == 80 && s2.videoListeners && s2.probes == [src]
               && s2.videoElement == Some(VideoElement(src))
               && var s3 := AfterCanPlay(s2);
                  && s3.overlay.fill == 100 && s3.overlay.timer == Running(0, 100, 0)
                  && !s3.timeoutArmed && s3.settleTimers == 1 && s3.overlay.status == ReadyStatus
                  && var s4 := AfterHideDelay(AfterSettle(s3));
                     && s4.overlay.faded && s4.overlay.hidden && !s4.overlay.hasError
  {
  }

  /** n firings of the percentage animation's interval. */
  function TickEvents(n: nat): (es: seq<PageEvent>)
    ensures |es| == n && forall i | 0 <= i < n :: es[i] == AnimationTimerFired
  {
    seq(n, _ => AnimationTimerFired)
  }

  /** The page's animation timer events are the overlay's ticks, and touch nothing else. */
  lemma {:induction false} TickRun(s: Session, n: nat)
    ensures RunPage(s, TickEvents(n)) == s.(overlay := Ticks(s.overlay, n))
    decreases n
  {
    if n > 0 {
      assert TickEvents(n)[1..] == TickEvents(n - 1);
      TickRun(AfterAnimationTick(s), n - 1);
    }
  }

  /**
   * The timeout fires on a page that shows no error yet: a recoverable timeout error
   * whose retry button reloads the page, and the slow-video warning on the detail
   * line. A `canplay` that arrives afterwards and the complete() it schedules leave
   * the percentage and the fill as the timeout found them, and do not hide the overlay.
   */
  lemma TimeoutThenLateCanPlay(t: Session)
    requires Inv(t.overlay) && t.overlay.mounted && !t.overlay.hasError
    requires !t.overlay.faded && !t.overlay.hidden && t.overlay.pendingHides == 0
    requires t.timeoutArmed && t.videoListeners
    ensures var s2 := AfterVideoTimeout(t);
            && var info := ClassifyTimeout("video", VideoTimeoutSeconds);
            && info.recoverable
            && s2.overlay.hasError && s2.overlay.errorView == Some(Render(info))
            && RetryDispatch(Render(info).retryKey.value, true) == ReloadPage
            && s2.overlay.detail == SlowVideoDetail
            && s2.logs == t.logs + [LogEntry(ErrorLevel, LogLine(info)), LogEntry(WarnLevel, SlowVideoWarning)]
            && var s3 := AfterSettle(AfterCanPlay(s2));
               && s3.overlay.shown == t.overlay.shown && s3.overlay.fill == t.overlay.fill
               && s3.overlay.hasError && !s3.overlay.faded && !s3.overlay.hidden && s3.overlay.pendingHides == 0
  {
    var info := ClassifyTimeout("video", VideoTimeoutSeconds);
    assert LogsOf(Callbacks(Timeout), info) == [LogEntry(WarnLevel, SlowVideoWarning)] by {
      var cbs := Callbacks(Timeout);
      assert cbs[..|cbs| - 1] == [];
    }
    assert AfterVideoTimeout(t).overlay.detail == SlowVideoDetail by {
      var cbs := Callbacks(Timeout);
      assert cbs[..|cbs| - 1] == [];
    }
  }

  /**
   * The successful start up to 80%, the animation's 600 ms of ticks, then the
   * 15-second timeout before `canplay`: the page keeps 80% on display and the fill
   * at 80% under the timeout error, through the late `canplay` and complete().
   */
  lemma TimeoutBeforeCanPlay(src: string)
    ensures var s1 := AfterCameraAnswer(AfterInit(Constructed, ReadyPage(src)), Granted(1), ReadyPage(src));
            var t1 := RunPage(s1, TickEvents(Steps));
            && t1.timeoutArmed && t1.videoListeners && !t1.overlay.hasError
            && t1.overlay.shown == 80 && t1.overlay.fill == 80
            && var s3 := AfterSettle(AfterCanPlay(AfterVideoTimeout(t1)));
               && s3.overlay.shown == 80 && s3.overlay.fill == 80 && s3.overlay.hasError
               && !s3.overlay.faded && !s3.overlay.hidden
  {
    var s1 := AfterCameraAnswer(AfterInit(Constructed, ReadyPage(src)), Granted(1), ReadyPage(src));
    assert s1.overlay.timer == Running(0, 80, 0);
    TickRun(s1, Steps);
    TicksReachTarget(s1.overlay);
    var t1 := RunPage(s1, TickEvents(Steps));
    assert t1 == s1.(overlay := s1.overlay.(shown := 80, timer := NoTimer));
    TimeoutThenLateCanPlay(t1);
  }

  /** A scene that has not loaded yet gets one more `loaded` listener from every
      initializeAR; nothing is probed until the event comes. */
  lemma ListenerPerInitialization(s: Session, page: Page)
    requires page.scene == Some(SceneElement(false))
    ensures ARInitialized(s, page).sceneListeners == s.sceneListeners + 1
    ensures ARInitialized(s, page).probes == s.probes
  {
  }

  /** Every listener the `loaded` event reaches runs setupVideo: one more HEAD probe of the file. */
  lemma ListenerSetsUpVideo(s: Session, page: Page)
    requires s.sceneListeners > 0 && page.video.Some?
    ensures AfterSceneLoaded(s, page).sceneListeners == s.sceneListeners - 1
    ensures AfterSceneLoaded(s, page).probes == s.probes + [page.video.value.src]
  {
  }

  /**
   * Two camera requests granted before the scene loads (the camera retry pressed
   * twice) leave two `loaded` listeners, and the one `loaded` event then runs
   * setupVideo twice: the file is probed twice.
   */
  lemma {:induction false} TwoGrantsTwoSetups(s: Session, src: string)
    requires s.cameraRequests >= 2 && s.sceneListeners == 0 && s.probes == []
    ensures var waiting := Page(true, Some(SceneElement(false)), Some(VideoElement(src)));
            var s2 := AfterCameraAnswer(AfterCameraAnswer(s, Granted(1), waiting), Granted(1), waiting);
            && s2.sceneListeners == 2 && s2.probes == []
            && var s3 := AfterSceneLoaded(AfterSceneLoaded(s2, ReadyPage(src)), ReadyPage(src));
               && s3.sceneListeners == 0 && s3.probes == [src, src]
  {
    var waiting := Page(true, Some(SceneElement(false)), Some(VideoElement(src)));
    var s1 := AfterCameraAnswer(s, Granted(1), waiting);
    ListenerPerInitialization(Progressed(Logged(s.(cameraRequests := s.cameraRequests - 1), InfoLevel, CameraGrantedMsg), 60), waiting);
    var s2 := AfterCameraAnswer(s1, Granted(1), waiting);
    ListenerPerInitialization(Progressed(Logged(s1.(cameraRequests := s1.cameraRequests - 1), InfoLevel, CameraGrantedMsg), 60), waiting);
    ListenerSetsUpVideo(s2, ReadyPage(src));
    ListenerSetsUpVideo(AfterSceneLoaded(s2, ReadyPage(src)), ReadyPage(src));
  }

  /**
   * A stream with no video track: the throw at assets/script.js:461 lands in the
   * catch at assets/script.js:467-469, so the page reports a generic, recoverable camera error carrying the
   * ReferenceError's message, whose retry button re-requests the camera; the
   * sequence does not advance (no 60%, no AR initialisation).
   */
  lemma ZeroTrackStream(s: Session, page: Page)
    requires Inv(s.overlay) && s.overlay.mounted && !s.overlay.hasError && s.cameraRequests > 0
    ensures var r := AfterCameraAnswer(s, Granted(0), page);
            && var info := ClassifyCamera(UndefinedReference);
            && info.message == CameraGenericMessage && info.details == Some(UndefinedReference.message)
            && info.recoverable
            && r.overlay.hasError && r.overlay.errorView == Some(Render(info))
            && RetryDispatch(Render(info).retryKey.value, true) == RerunCameraRequest
            && r.overlay.fill == s.overlay.fill && r.overlay.shown == s.overlay.shown
            && r.sceneListeners == s.sceneListeners && r.sceneRetries == s.sceneRetries
            && r.videoElement == s.videoElement && r.probes == s.probes
            && r.logs == s.logs + [LogEntry(ErrorLevel, LogLine(info))]
  {
    var info := ClassifyCamera(UndefinedReference);
    assert LogsOf(Callbacks(Camera), info) == [] by {
      var cbs := Callbacks(Camera);
      assert cbs[..|cbs| - 1] == [];
    }
  }

  /**
   * A missing video element: the page reports a video error with code 0, which
   * the classification treats as unknown, so it is the generic message, no
   * details, and recoverable; its retry button runs setupVideo again.
   */
  lemma MissingVideoElement(s: Session, page: Page)
    requires Inv(s.overlay) && s.overlay.mounted && page.video.None?
    ensures var r := VideoSetUp(s, page);
            && var info := ClassifyVideo(Some(MediaError(0)));
            && info.message == VideoGenericMessage && info.details.None? && info.recoverable
            && r.overlay.hasError && r.overlay.errorView == Some(Render(info))
            && RetryDispatch(Render(info).retryKey.value, true) == RerunVideoSetup
            && r.videoListeners == s.videoListeners && r.probes == s.probes
  {
  }
}

=== FILE: play_video.dfy ===
/**
 * The `play-video` A-Frame component: a tap or a found marker calls playstart,
 * which starts the video when it is stopped and ready, and pauses it when it
 * is playing and the component may stop it.
 */
module PlayVideo {
  import opened Options

  /** What playstart asks of the media element. */
  datatype Command = NoCommand | Play | Pause

  datatype Outcome = Outcome(playing: bool, command: Command)

  /** HAVE_CURRENT_DATA: the least readyState at which playstart starts the video. */
  const HaveCurrentData: int := 2

  /** `this.v && this.v.src`: an element was found and its source is not empty. */
  predicate HasSource(video: Option<string>) {
    video.Some? && video.value != ""
  }

  /** One playstart call. */
  function Press(playing: bool, hasSource: bool, readyState: int, canstop: bool): (r: Outcome)
    ensures !hasSource ==> r == Outcome(playing, NoCommand)
    ensures hasSource && !playing ==>
              (r.playing <==> readyState >= HaveCurrentData) && (r.command == Play <==> r.playing)
              && r.command != Pause
    ensures hasSource && playing ==>
              (r.playing <==> !canstop) && (r.command == Pause <==> canstop) && r.command != Play
  {
    if !hasSource then Outcome(playing, NoCommand)
    else if !playing then
      if readyState >= HaveCurrentData then Outcome(true, Play) else Outcome(false, NoCommand)
    else if canstop then Outcome(false, Pause)
    else Outcome(true, NoCommand)
  }

  /** `playing` after a series of presses, each seeing the readyState of its time. */
  function PlayingAfter(playing: bool, hasSource: bool, readyStates: seq<int>, canstop: bool): bool
    decreases |readyStates|
  {
    if readyStates == [] then playing
    else PlayingAfter(Press(playing, hasSource, readyStates[0], canstop).playing, hasSource, readyStates[1..], canstop)
  }

  /** Without `canstop`, once the video plays it keeps playing. */
  lemma {:induction false} PlayingIsSticky(hasSource: bool, readyStates: seq<int>)
    ensures PlayingAfter(true, hasSource, readyStates, false)
  {
    if readyStates != [] {
      PlayingIsSticky(hasSource, readyStates[1..]);
    }
  }

  /** With `canstop`, two presses on a ready video start and then pause it. */
  lemma PlayThenPause(readyState: int, later: int)
    requires readyState >= HaveCurrentData
    ensures Press(false, true, readyState, true) == Outcome(true, Play)
    ensures Press(Press(false, true, readyState, true).playing, true, later, true) == Outcome(false, Pause)
  {
  }

  /** Starting from stopped, the component is playing only if it has a source and some
      press saw the video ready. */
  lemma {:induction false} PlayingNeedsReadyPress(playing: bool, hasSource: bool, readyStates: seq<int>, canstop: bool)
    requires PlayingAfter(playing, hasSource, readyStates, canstop) && !playing
    ensures hasSource
    ensures exists i :: 0 <= i < |readyStates| && readyStates[i] >= HaveCurrentData
  {
    assert readyStates != [];
    var next := Press(playing, hasSource, readyStates[0], canstop).playing;
    if next {
      assert readyStates[0] >= HaveCurrentData;
    } else {
      PlayingNeedsReadyPress(next, hasSource, readyStates[1..], canstop);
      var i :| 0 <= i < |readyStates[1..]| && readyStates[1..][i] >= HaveCurrentData;
      assert readyStates[i + 1] >= HaveCurrentData;
    }
  }

  class PlayVideoComponent {
    /** `this.v`'s source, or None when the selector found no element. */
    const video: Option<string>
    /** The `canstop` schema property. */
    const canstop: bool
    var playing: bool

    /** init: `playing` starts false (and stays unset, hence false, without an element). */
    constructor(video: Option<string>, canstop: bool)
      ensures this.video == video && this.canstop == canstop && !playing
    {
      this.video := video;
      this.canstop := canstop;
      playing := false;
    }

    /** playstart; `readyState` is the element's at the time of the call. */
    method Playstart(readyState: int) returns (command: Command)
      modifies this
      ensures Outcome(playing, command) == Press(old(playing), HasSource(video), readyState, canstop)
    {
      command := NoCommand;
      if video.None? || video.value == "" {
        return;
      }
      if !playing {
        if readyState >= HaveCurrentData {
          command := Play;
          playing := true;
        }
      } else if canstop {
        command := Pause;
        playing := false;
      }
    }
  }
}

=== FILE: sequencer.dfy ===
/**
 * ARLoadingManager: owns the overlay, the debug logger and the error handler,
 * registers the page's error callbacks, and drives the loading sequence.
 *
 * The browser's asynchronous machinery (timers, promise settlement, DOM events)
 * is not modelled as such: what the manager leaves pending is recorded in its
 * fields, and each callback the browser would run later is a method here.
 * Every method is proved to move the manager's snapshot exactly as the step of
 * the page model (module PageModel) says.
 */
module Sequencer {
  import opened Options
  import opened Errors
  import opened Logging
  import opened Overlay
  import opened Notifier
  import opened PageModel

  class ARLoadingManager {
    const overlay: LoadingAnimationManager
    const logger: DebugLogger
    const handler: ErrorHandler

    var videoElement: Option<VideoElement>
    /** Whether `videoTimeout` holds a handle. */
    var videoTimeout: bool
    /** Whether the timeout callback is still to run. */
    var timeoutArmed: bool
    var libraryPollPending: bool
    var cameraRequests: nat
    var sceneRetries: nat
    var sceneListeners: nat
    var probes: seq<string>
    var videoListeners: bool
    var settleTimers: nat

    /** The handler reports to this manager's overlay and logger, with the page's callbacks. */
    ghost predicate Valid()
      reads this, handler
    {
      && handler.display == overlay
      && handler.logger == logger
      && handler.callbacks == PageCallbacks
    }

    ghost function Snapshot(): Session
      reads this, overlay, logger, handler
    {
      Session(overlay.State(), logger.logs, handler.invoked, videoElement, videoTimeout,
              timeoutArmed, libraryPollPending, cameraRequests, sceneRetries,
              sceneListeners, probes, videoListeners, settleTimers)
    }

    /** constructor and setupErrorCallbacks. */
    constructor()
      ensures Valid() && Snapshot() == Constructed
    {
      var o := new LoadingAnimationManager();
      var l := new DebugLogger();
      overlay := o;
      logger := l;
      handler := new ErrorHandler(o, l);
      videoElement := None;
      videoTimeout := false;
      timeoutArmed := false;
      libraryPollPending := false;
      cameraRequests := 0;
      sceneRetries := 0;
      sceneListeners := 0;
      probes := [];
      videoListeners := false;
      settleTimers := 0;
      new;
      assert handler.callbacks == map[];
      assert handler.Registered(Video) == [];
      handler.On(Video, WarnIfUnrecoverable(VideoFailedWarning));
      assert handler.Registered(Video) == [WarnIfUnrecoverable(VideoFailedWarning)];
      assert handler.callbacks == map[Video := [WarnIfUnrecoverable(VideoFailedWarning)]];
      assert handler.Registered(Camera) == [];
      handler.On(Camera, WarnIfUnrecoverable(CameraFailedWarning));
      assert handler.Registered(Camera) == [WarnIfUnrecoverable(CameraFailedWarning)];
      assert handler.callbacks == map[Video := [WarnIfUnrecoverable(VideoFailedWarning)],
                                      Camera := [WarnIfUnrecoverable(CameraFailedWarning)]];
      assert handler.Registered(Timeout) == [];
      handler.On(Timeout, WarnOnOperation("video", SlowVideoDetail, SlowVideoWarning));
      assert handler.Registered(Timeout) == [WarnOnOperation("video", SlowVideoDetail, SlowVideoWarning)];
      assert handler.callbacks == PageCallbacks;
    }

    method Init(page: Page)
      requires Valid() && Inv(overlay.State()) && !overlay.mounted
      modifies this, overlay, logger, handler
      ensures Valid()
      ensures Snapshot() == AfterInit(old(Snapshot()), page)
    {
      overlay.Create();
      logger.Info(InitMsg);
      StartLoadingSequence(page);
      SetupTimeouts();
    }

    method StartLoadingSequence(page: Page)
      requires Valid()
      modifies this, overlay, logger, handler
      ensures Valid()
      ensures Snapshot() == Started(old(Snapshot()), page)
    {
      logger.Info(LibraryCheckMsg);
      overlay.UpdateProgress(20);
      CheckLibraries(page);
    }

    /** The checkLibraries closure; `page.aframeLoaded` is `typeof AFRAME !== 'undefined'`. */
    method CheckLibraries(page: Page)
      requires Valid()
      modifies this, overlay, logger, handler
      ensures Valid()
      ensures Snapshot() == LibraryChecked(old(Snapshot()), page)
    {
      if page.aframeLoaded {
        logger.Info(LibraryReadyMsg);
        overlay.UpdateProgress(40);
        RequestCameraAccess();
      } else {
        logger.Info(LibraryWaitMsg);
        libraryPollPending := true;
      }
    }

    /** The 100 ms poll timer fires. */
    method LibraryPollFires(page: Page)
      requires Valid() && libraryPollPending
      modifies this, overlay, logger, handler
      ensures Valid()
      ensures Snapshot() == AfterLibraryPoll(old(Snapshot()), page)
    {
      libraryPollPending := false;
      CheckLibraries(page);
    }

    method RequestCameraAccess()
      requires Valid()
      modifies this, overlay, logger, handler
      ensures Valid()
      ensures Snapshot() == CameraRequested(old(Snapshot()))
    {
      logger.Info(CameraRequestMsg);
      overlay.UpdateStatus(CameraRequestStatus);
      cameraRequests := cameraRequests + 1;
    }

    /** getUserMedia settles: the `.then` handler, or the `.catch` handler when the
        promise rejects or the `.then` handler throws. */
    method CameraAnswered(outcome: CameraOutcome, page: Page)
      requires Valid() && cameraRequests > 0
      modifies this, overlay, logger, handler
      ensures Valid()
      ensures Snapshot() == AfterCameraAnswer(old(Snapshot()), outcome, page)
    {
      cameraRequests := cameraRequests - 1;
      assert Snapshot() == old(Snapshot()).(cameraRequests := old(cameraRequests) - 1);
      match outcome
      case Granted(n) =>
        if n == 0 {
          // The reference to an undeclared name throws; the catch handler gets that exception.
          CatchCameraError(UndefinedReference);
        } else {
          ContinueWithStream(page);
        }
      case Rejected(e) =>
        CatchCameraError(e);
    }

    /** The `.catch` handler. */
    method CatchCameraError(e: RawError)
      requires Valid()
      modifies this, overlay, logger, handler
      ensures Valid()
      ensures Snapshot() == Notified(old(Snapshot()), ClassifyCamera(e))
    {
      var _ := handler.HandleCameraError(e);
    }

    /** The `.then` handler past its track check. */
    method ContinueWithStream(page: Page)
      requires Valid()
      modifies this, overlay, logger, handler
      ensures Valid()
      ensures Snapshot() == CameraGranted(old(Snapshot()), page)
    {
      logger.Info(CameraGrantedMsg);
      overlay.UpdateProgress(60);
      InitializeAR(page);
    }

    method InitializeAR(page: Page)
      requires Valid()
      modifies this, overlay, logger, handler
      ensures Valid()
      ensures Snapshot() == ARInitialized(old(Snapshot()), page)
    {
      logger.Info(ARInitMsg);
      overlay.UpdateStatus(ARInitStatus);
      match page.scene
      case None =>
        logger.Warn(SceneMissingMsg);
        sceneRetries := sceneRetries + 1;
      case Some(scene) =>
        logger.Info(SceneFoundMsg);
        if scene.hasLoaded {
          logger.Info(SceneAlreadyLoadedMsg);
          overlay.UpdateProgress(80);
          SetupVideo(page);
        } else {
          sceneListeners := sceneListeners + 1;
        }
    }

    /** The 500 ms retry of initializeAR fires. */
    method SceneRetryFires(page: Page)
      requires Valid() && sceneRetries > 0
      modifies this, overlay, logger, handler
      ensures Valid()
      ensures Snapshot() == AfterSceneRetry(old(Snapshot()), page)
    {
      sceneRetries := sceneRetries - 1;
      assert Snapshot() == old(Snapshot()).(sceneRetries := old(sceneRetries) - 1);
      InitializeAR(page);
    }

    /** One of the scene's `loaded` listeners runs. */
    method SceneLoaded(page: Page)
      requires Valid() && sceneListeners > 0
      modifies this, overlay, logger, handler
      ensures Valid()
      ensures Snapshot() == AfterSceneLoaded(old(Snapshot()), page)
    {
      sceneListeners := sceneListeners - 1;
      assert Snapshot() == old(Snapshot()).(sceneListeners := old(sceneListeners) - 1);
      logger.Info(SceneLoadedMsg);
      overlay.UpdateProgress(80);
      SetupVideo(page);
    }

    method SetupVideo(page: Page)
      requires Valid()
      modifies this, overlay, logger, handler
      ensures Valid()
      ensures Snapshot() == VideoSetUp(old(Snapshot()), page)
    {
      logger.Info(VideoSetupMsg);
      overlay.UpdateStatus(VideoSetupStatus);
      videoElement := page.video;
      if videoElement.None? {
        logger.Error(VideoMissingMsg);
        var _ := handler.HandleVideoError(Some(MediaError(0)));
        return;
      }
      var src := videoElement.value.src;
      logger.Info(VideoSourcePrefix + src);
      CheckVideoFile(src);
      SetupVideoEvents();
    }

    /** checkVideoFile up to its `await`: the log line and the HEAD request in flight. */
    method CheckVideoFile(src: string)
      modifies this, logger
      ensures logger.logs == old(logger.logs) + [LogEntry(InfoLevel, ProbeStartPrefix + src)]
      ensures probes == old(probes) + [src]
      ensures unchanged(this`videoElement, this`videoTimeout, this`timeoutArmed, this`libraryPollPending)
      ensures unchanged(this`cameraRequests, this`sceneRetries, this`sceneListeners)
      ensures unchanged(this`videoListeners, this`settleTimers)
    {
      logger.Info(ProbeStartPrefix + src);
      probes := probes + [src];
    }

    /** The HEAD request number i settles: checkVideoFile after its `await`. */
    method ProbeAnswered(i: nat, outcome: ProbeOutcome)
      requires Valid() && i < |probes|
      modifies this, overlay, logger, handler
      ensures Valid()
      ensures Snapshot() == AfterProbe(old(Snapshot()), i, outcome)
    {
      var src := probes[i];
      probes := probes[..i] + probes[i + 1..];
      match outcome
      case Responded(status, contentType, contentLength) =>
        if 200 <= status <= 299 {
          ProbeSucceeded(status, contentType, contentLength);
        } else {
          ProbeRejected(src, status);
        }
      case FetchFailed(message) =>
        logger.Error(ProbeErrorPrefix + message);
        ProbeRejected(src, 0);
    }

    /** `response.ok`: the status and the two headers are logged. */
    method ProbeSucceeded(status: nat, contentType: string, contentLength: string)
      requires Valid()
      modifies logger
      ensures Valid()
      ensures Snapshot() == ProbeOk(old(Snapshot()), status, contentType, contentLength)
    {
      logger.Info(ProbeOkPrefix + Decimal.NatToDecimal(status));
      logger.Info("Content-Type: " + contentType);
      logger.Info("Content-Length: " + contentLength + " bytes");
    }

    /** A failed probe is reported as a network error for the file. */
    method ProbeRejected(src: string, status: nat)
      requires Valid()
      modifies overlay, logger, handler
      ensures Valid()
      ensures Snapshot() == ProbeFailed(old(Snapshot()), src, status)
    {
      var _ := handler.HandleNetworkError(src, status);
    }

    /** setupVideoEvents: the media listeners are attached. */
    method SetupVideoEvents()
      modifies this
      ensures videoListeners
      ensures unchanged(this`videoElement, this`videoTimeout, this`timeoutArmed, this`libraryPollPending)
      ensures unchanged(this`cameraRequests, this`sceneRetries, this`sceneListeners)
      ensures unchanged(this`probes, this`settleTimers)
    {
      videoListeners := true;
    }

    method OnLoadStart()
      requires Valid() && videoListeners
      modifies this, overlay, logger, handler
      ensures Valid()
      ensures Snapshot() == AfterLoadStart(old(Snapshot()))
    {
      logger.Info(LoadStartMsg);
      overlay.UpdateDetail(LoadStartDetail);
    }

    method OnLoadedMetadata(summary: string)
      requires Valid() && videoListeners
      modifies this, overlay, logger, handler
      ensures Valid()
      ensures Snapshot() == AfterMetadata(old(Snapshot()), summary)
    {
      logger.Info(MetadataPrefix + summary);
      overlay.UpdateDetail(MetadataDetail);
    }

    method OnCanPlay()
      requires Valid() && videoListeners
      modifies this, overlay, logger, handler
      ensures Valid()
      ensures Snapshot() == AfterCanPlay(old(Snapshot()))
    {
      logger.Info(CanPlayMsg);
      ClearTimeouts();
      overlay.UpdateProgress(100);
      overlay.UpdateStatus(ReadyStatus);
      settleTimers := settleTimers + 1;
    }

    method OnVideoError(error: Option<MediaError>)
      requires Valid() && videoListeners
      modifies this, overlay, logger, handler
      ensures Valid()
      ensures Snapshot() == AfterVideoError(old(Snapshot()), error)
    {
      var _ := handler.HandleVideoError(error);
    }

    method SetupTimeouts()
      modifies this
      ensures videoTimeout && timeoutArmed
      ensures unchanged(this`videoElement, this`libraryPollPending, this`cameraRequests)
      ensures unchanged(this`sceneRetries, this`sceneListeners, this`probes)
      ensures unchanged(this`videoListeners, this`settleTimers)
    {
      videoTimeout := true;
      timeoutArmed := true;
    }

    method ClearTimeouts()
      modifies this
      ensures !old(videoTimeout) ==> timeoutArmed == old(timeoutArmed)
      ensures old(videoTimeout) ==> !timeoutArmed
      ensures !videoTimeout
      ensures unchanged(this`videoElement, this`libraryPollPending, this`cameraRequests)
      ensures unchanged(this`sceneRetries, this`sceneListeners, this`probes)
      ensures unchanged(this`videoListeners, this`settleTimers)
    {
      if videoTimeout {
        videoTimeout := false;
        timeoutArmed := false;
      }
    }

    /** The timeout set by setupTimeouts fires. */
    method VideoTimeoutFires()
      requires Valid() && timeoutArmed
      modifies this, overlay, logger, handler
      ensures Valid()
      ensures Snapshot() == AfterVideoTimeout(old(Snapshot()))
    {
      timeoutArmed := false;
      var _ := handler.HandleTimeout("video", VideoTimeoutSeconds);
    }

    /** The one-second timer scheduled by `canplay` fires. */
    method SettleTimerFires()
      requires Valid() && settleTimers > 0
      modifies this, overlay, logger, handler
      ensures Valid()
      ensures Snapshot() == AfterSettle(old(Snapshot()))
    {
      settleTimers := settleTimers - 1;
      Complete();
    }

    method Complete()
      requires Valid()
      modifies this, overlay, logger, handler
      ensures Valid()
      ensures Snapshot() == Completed(old(Snapshot()))
    {
      logger.Info(CompleteMsg);
      ClearTimeouts();
      overlay.Hide();
    }

    /** The overlay's animation interval fires. */
    method AnimationTimerFires()
      requires Valid()
      modifies this, overlay, logger, handler
      ensures Valid()
      ensures Snapshot() == AfterAnimationTick(old(Snapshot()))
    {
      overlay.Tick();
    }

    /** The overlay's 1000 ms hide timer fires. */
    method HideDelayElapses()
      requires Valid()
      modifies this, overlay, logger, handler
      ensures Valid()
      ensures Snapshot() == AfterHideDelay(old(Snapshot()))
    {
      if overlay.pendingHides > 0 {
        overlay.HideTimerFires();
      }
    }

    /** retryOperation on the page's manager; ReloadPage is left to the browser. */
    method RetryOperation(key: string, page: Page) returns (action: RetryAction)
      requires Valid()
      modifies this, overlay, logger, handler
      ensures Valid()
      ensures action == RetryDispatch(key, true)
      ensures Snapshot() == AfterRetry(old(Snapshot()), key, page)
    {
      if key == "video" {
        action := RerunVideoSetup;
        SetupVideo(page);
      } else if key == "camera" {
        action := RerunCameraRequest;
        RequestCameraAccess();
      } else {
        action := ReloadPage;
      }
    }
  }
}
